=== FILE: README.md ===
# Bank counters: locks, ledgers and client guards in Dafny

This project models the core of a small real-time "bank counters" game. One
central bank and five participant counters (gallo, leon, perro, mano,
estrella) each hold a balance. Participants connect over sockets and ask a
server to start or end operations on a counter. They then send balance
operations, and the server checks them against a lock table before applying
them. The repository has three servers, and each is modelled on its own:

- `server-db.js`, the database-backed server. It authenticates against a
  fixed credential table. It has explicit per-counter locks, plus an
  admin-only global lock that leaves the counter locks stored underneath it.
  Its `operation` handler runs a ten-way balance switch.
- `server.js`, the in-memory variant. It does not authenticate. Starting its
  global lock wipes every counter lock. It lends the bank to the first
  operator who starts, and locks a transfer's destination on the fly.
- `server-simple.js`, which has no locks at all. Authentication is the only
  gate in front of the richest balance switch.

The client `script.js` keeps two bounded, newest-first history lists. It also
guards what the user types before it sends an `update_balance` message.

Each socket handler is a pure step `(State, socket, request) -> (State, Outcome)`.
`Outcome` is `Ok`, `Ignored` (the server drops the request silently) or
`Rejected(reason)`. JavaScript's lock values are modelled exactly:

- a key never assigned is `Undefined`;
- a released key is `Null`;
- a holder is `User(id)`.

A request that omits a counter carries the key `undefined` (`Key = Option<Counter>`).
Amounts are exact rationals, and `Math.floor` is written out.

Modules:

- `Domain`: counters, the balance record, the lock table, outcomes.
- `Sessions`: the session registry.
- `LockQueries`: the four read-only lock queries. They are textually identical in both
  lock-holding servers, so they are defined once.
- `DbLocks`, `DbLedger`, `DbServer`: the database-backed server.
- `VariantLocks`, `VariantServer`: the in-memory variant.
- `SimpleServer`: the lock-free server.
- `Client`: the browser helpers and guards.

## Model

| member | source | states |
|---|---|---|
| `Domain.FloorHalf` | server-db.js:352-355 | `Math.floor(x / 2)` is the integral value `r` with `2r <= x < 2r + 2` |
| `Domain.FloorHalfOfDouble` | server-db.js:348-355 | halving a doubled amount gives it back exactly when the amount is integral |
| `Domain.Move` | server.js:360-362 | money changes hands: the source loses and the destination gains exactly `t`, nothing else changes, and the total stays |
| `Domain.Exchange` | server.js:363-366 | the two balances trade places, nothing else changes, and the total stays |
| `Domain.ShareBounds` | server-db.js:336-347 | a 0..100 percentage of a non-negative balance lies between zero and the balance |
| `Domain.FloorHalfNonNegative` | server-db.js:352-355 | halving a non-negative balance never makes it negative |
| `Sessions.Authenticate` | server-db.js:187-222 | the socket is bound exactly when the user name is an own row of the table and the password matches; the bound session carries the row's role, name and counter; a failure leaves the registry unchanged; other sockets are untouched |
| `Sessions.Bind` | server-db.js:200-207 | the row found signs the socket in exactly when its password equals the one sent, with that row's role, name and counter; otherwise nothing changes |
| `Sessions.LookupAsWritten` | server-db.js:200 | `users[username]` finds an own row, else an inherited `Object.prototype` method with no password, role or counter, else nothing |
| `Sessions.AuthenticateAsWritten` | server-db.js:200-207 | as the handler is written, an inherited method name with no password signs in as an operator with no counter |
| `Sessions.PrototypeNameSignsIn` | server-db.js:200-207 | for every table without such a row, `constructor` with no password signs in as operator `Object`, and the own-row reading refuses it |
| `Sessions.NoPasswordNoSession` | server-db.js:200-202 | when every row has a password, a message without one never signs in |
| `Sessions.AuthenticateThenForget` | server-db.js:200-207 | signing in on a new connection and then leaving restores the registry exactly |
| `Sessions.Forget` | server-db.js:443-471 | disconnecting removes only the leaving socket's session |
| `LockQueries.IsCounterLocked` | server-db.js:54-60 | a counter is free exactly when no global lock is up and its slot holds `null`; a never-assigned key counts as locked |
| `LockQueries.GetLockedBy` | server-db.js:63-68 | a held global lock names its holder for every counter; otherwise the stored value |
| `LockQueries.CanUserOperate` | server-db.js:71-80 | under a global lock only the admin holding it passes; a counter held by someone else refuses non-admins (mutual exclusion); free and own counters pass, and so do admins; an unassigned key refuses non-admins |
| `LockQueries.CanUserTransferToBank` | server-db.js:83-89 | always allowed without a global lock; under one it agrees with `CanUserOperate` on the bank |
| `LockQueries.QueriesAgree` | server-db.js:54-80 | without a global lock a non-admin may operate exactly what `isCounterLocked` calls free or `getLockedBy` attributes to them; under one, exactly the admin `getLockedBy` names |
| `LockQueries.InitialTableClosesBank` | server-db.js:38-44 | on the boot table every participant counter is open to everyone, and the bank only to admins |
| `DbLocks.LockCounter` | server-db.js:92-97 | the counter is held by the caller; other counters and the global lock are unchanged |
| `DbLocks.UnlockCounter` | server-db.js:100-105 | the counter holds `null`; nothing else changes |
| `DbLocks.LockGlobal` | server-db.js:108-115 | the global lock is taken by the caller whoever held it, with the counter locks left stored |
| `DbLocks.UnlockGlobal` | server-db.js:118-125 | the global lock is down with no holder; the counter locks are unchanged |
| `DbLocks.ReleaseAllFor` | server-db.js:448-456 | every key held by the leaver becomes `null`, the others keep their value, and afterwards no key names the leaver |
| `DbLocks.ReleaseAllForIdempotent` | server-db.js:448-456 | releasing twice is releasing once |
| `DbLedger.Apply` | server-db.js:317-373 | only the request's counters change; transfer, percentage transfer, deposit and swap conserve the total; add adds the amount, set writes it, duplicate doubles the balance, and subtract takes the amount off when the balance covers it and otherwise leaves zero; a capped transfer leaves the source non-negative |
| `DbLedger.TransferMovesAvailable` | server-db.js:330-335 | a transfer moves `min(amount, balance[from])`, which the source can cover, and the destination gains exactly what the source lost |
| `DbLedger.PercentageMovesShare` | server-db.js:336-347 | the percentage transfer and the deposit move exactly `balance * pct / 100` from the source to the destination or bank |
| `DbLedger.SwapExchanges` | server-db.js:356-361 | swap exchanges the two balances |
| `DbLedger.HalveFloors` | server-db.js:352-355 | halve leaves the floored half |
| `DbLedger.DuplicateThenHalve` | server-db.js:348-355 | duplicate then halve restores the whole balance set exactly when the balance was integral |
| `DbLedger.ResetAndUnknown` | server-db.js:362-373 | reset_all gives the initial balances whatever came before; an unknown kind changes nothing |
| `DbLedger.ApplyKeepsNonNegative` | server-db.js:317-373 | one request with a non-negative amount and a 0..100 percentage keeps every balance non-negative |
| `DbLedger.ApplyAllKeepsNonNegative` | server-db.js:317-373 | no run of such requests drives any balance below zero |
| `DbServer.StartOperations` | server-db.js:225-256 | unauthenticated: rejected; global: taken exactly by admins, with slots untouched; counter: taken exactly when `canUserOperate` allows; no balance change |
| `DbServer.EndOperations` | server-db.js:259-288 | global: lifted exactly by the admin holding it; counter: released exactly for its holder or an admin; anything else is dropped unchanged |
| `DbServer.ReleaseCounter` | server-db.js:279-286 | the counter is released exactly when the caller holds it or is an admin |
| `DbServer.FinishOperation` | server-db.js:419-440 | an unknown socket is ignored; otherwise it behaves as ending that counter |
| `DbServer.Operation` | server-db.js:291-387 | unauthenticated, unpermitted or unread: rejected with the state unchanged; an authenticated, permitted request with a good read is answered `Ok`, applies the switch when the write succeeds and keeps the balances when it fails; the log gains exactly this request's record when the write and the insert succeed |
| `DbServer.Disconnect` | server-db.js:443-471 | the leaver's counters become `null`, their global lock is lifted if they are an admin holding it, and the session is forgotten; an unknown socket changes nothing |
| `DbServer.DisconnectIdempotent` | server-db.js:443-471 | disconnecting twice is disconnecting once |
| `DbServer.DisconnectFreesCounters` | server-db.js:448-456 | after the holder leaves, anyone may operate the counter unless a global lock is up |
| `DbServer.HandlersKeepGlobalConsistent` | server-db.js:108-125 | every handler keeps the global flag and its holder in step |
| `DbServer.HoldSurvivesOthers` | server-db.js:71-80 | once `x` holds a counter with no global lock up, no run of requests from anyone but `x` and the admins takes it or raises a global lock, with `x` connected or not |
| `DbServer.OthersRejectedWhileHeld` | server-db.js:291-304 | after any such run an operation on the held counter passes exactly for `x` and the admins; anyone else is rejected with the state unchanged |
| `DbServer.GlobalLockSurvivesOthers` | server-db.js:71-75 | while admin `a` holds the global lock, no run of non-admin requests lifts it, with `a` connected or not; afterwards an operation on any counter passes exactly for `a` as an admin |
| `DbServer.SignIn` | server-db.js:187-222 | the corrected reading of `authenticate` (see Findings): a user name that is an own row of the table, with its password, binds the socket to that row and nothing else changes; anything else, an inherited `Object.prototype` name included, is refused with the state unchanged |
| `DbServer.HolderStaysConnected` | server-db.js:187-256 | from a first-run server, one operator signs in and starts on gallo and a second signs in: the holder is still connected and the second session's requests meet the premise of the runs above |
| `VariantLocks.StartGlobalLock` | server.js:108-117 | the caller holds the global lock and every assigned counter is released; unassigned keys stay unassigned |
| `VariantLocks.EndGlobalLock` | server.js:120-126 | only the holder lifts the global lock; counter locks are untouched |
| `VariantLocks.GlobalSessionRoundTrip` | server.js:108-126 | a global session started and ended by the same admin leaves no lock behind |
| `VariantLocks.AutoLock` | server.js:305-308 | the destination is locked to the sender when it is falsy or theirs, and is never taken from another holder |
| `VariantLocks.LendBank` | server.js:203-205 | the bank goes to the operator when no global lock is up and the bank is falsy; otherwise nothing changes |
| `VariantLocks.ReturnBank` | server.js:269-271 | the caller's hold on the bank is released; nobody else's |
| `VariantServer.Login` | server.js:142-152 | the client's self-description is stored for the socket |
| `VariantServer.LoginNamesTheActor` | server.js:142-152 | after a login the socket acts under the claimed name and role; other sockets are unaffected |
| `VariantServer.LoginClaimsAdmin` | server.js:142-172 | the stored description is never checked: a socket that logs in claiming the admin role starts the global lock under its claimed name whenever no global lock is up |
| `VariantServer.StartOperations` | server.js:155-219 | an admin is refused exactly while another user holds the global lock, and otherwise starts it; an operator succeeds exactly when `canUserOperate` allows, holds the counter and borrows a free bank |
| `VariantServer.EndOperations` | server.js:222-285 | an admin ends exactly a global lock they hold; an operator ends exactly when `getLockedBy` names them, releasing the counter and the bank if they hold it, and nobody else's hold on the bank |
| `VariantServer.OperatorSessionRoundTrip` | server.js:155-285 | starting and ending a free counter succeeds and leaves the counter and bank released, with the rest unchanged |
| `VariantServer.ApplyUpdate` | server.js:354-376 | only the request's counters change; transfer and swap conserve the total; add adds the amount and set writes it; subtract takes the amount off when the balance covers it and otherwise leaves zero; with no counter, and for deposit and unknown kinds, nothing changes |
| `VariantServer.TransferAndSwapPairs` | server.js:360-376 | between two distinct counters a transfer moves exactly `amount` with no cap and swap exchanges; reset always gives the initial balances |
| `VariantServer.AuthorizeAsWritten` | server.js:295-351 | the ladder as the server runs it: a bank deposit passes exactly when `canUserTransferToBank` does; a deposit to another counter locks it first and then checks the source against the changed table; a transfer locks its destination only after its source passes; every other request, a deposit naming no target included, passes exactly when its counter may be operated and locks nothing; the global lock is never touched |
| `VariantServer.Authorize` | server.js:295-351 | the corrected ladder: a rejection leaves the table unchanged; only a deposit or transfer destination changes hands, and never from another holder; a bank deposit passes exactly when `canUserTransferToBank` does, a deposit to another counter or any request that is not a transfer (a deposit naming no target included) exactly when its counter may be operated, a transfer exactly when its source may be; an accepted deposit to another counter locks that counter, and an accepted transfer its destination, to the sender as `autoLock` does, while a rejected one leaves the table as it was |
| `VariantServer.UpdateBalanceAsWritten` | server.js:288-376 | `Ok` exactly when the as-written ladder passes, with its reason otherwise; the table the ladder leaves is kept on a rejection too; an accepted update runs the balance chain and a rejection keeps the balances |
| `VariantServer.DepositRejectionLeavesLock` | server.js:304-319 | a deposit to perro that fails its source check still locks perro to the sender |
| `VariantServer.RejectedDepositKeepsAutoLock` | server.js:304-319 | on every state, a refused deposit to a free or own counter leaves it locked to the sender, while the corrected handler keeps the lock table |
| `VariantServer.UpdateBalance` | server.js:288-376 | `Ok` exactly when the corrected ladder passes, with its table; a rejection carries the ladder's reason and changes nothing; an accepted update runs the balance chain; no lock held by someone else changes |
| `VariantServer.AsWrittenAgreesOffDeposit` | server.js:295-351 | the corrected and the as-written handlers agree on every request except a deposit to another counter |
| `VariantServer.SwapAuthorisesCounterField` | server.js:341-350 | swap and reset pass exactly when the `counter` field may be operated, so without one only admins pass |
| `VariantServer.Disconnect` | server.js:416-441 | a global lock the leaver holds is reset to no holder and any other global lock is kept as it was; with no global lock left up their counters are released; under another's global lock no counter changes |
| `VariantServer.DisconnectIdempotent` | server.js:416-441 | disconnecting twice is disconnecting once |
| `SimpleServer.Overwrite` | server-simple.js:253-256 | supplied counters take the supplied amount; the others keep theirs |
| `SimpleServer.DivideBankAmount` | server-simple.js:261-271 | the bank pays `amount`, each participant gains a fifth, and the total is unchanged |
| `SimpleServer.Apply` | server-simple.js:210-283 | only the request's counters change; transfer, transfer to bank and divide-bank conserve the total; divide-bank takes `amount` from the bank and gives each of the five participants a fifth of it; add-percentage adds `b * p / 100` whatever the signs; add adds the amount, set writes it, duplicate doubles the balance; subtract and subtract-percentage take off the amount or share when the balance covers it and otherwise leave zero |
| `SimpleServer.AddPercentageGrows` | server-simple.js:223-227 | adding a non-negative percentage raises a non-negative balance by exactly its share |
| `SimpleServer.TransferMovesShare` | server-simple.js:233-244 | transfers move exactly `b * p / 100` with no cap; with `p` in 0..100 the source stays non-negative |
| `SimpleServer.SetKindsWriteOnlyTheirCounters` | server-simple.js:253-260 | set_specific_amounts writes exactly the supplied counters; set_bank_amount writes only the bank |
| `SimpleServer.HalveResetUnknown` | server-simple.js:249-283 | halve floors, reset_all ignores the prior balances, an unknown kind changes nothing |
| `SimpleServer.Operation` | server-simple.js:188-325 | there is no lock check; `Ok` exactly for an authenticated socket whose read and write succeed, and then the switch is applied; the log gains exactly this request's record when the insert succeeds too; every failure leaves the state unchanged |
| `SimpleServer.Disconnect` | server-simple.js:347-353 | only the session is forgotten |
| `SimpleServer.DisconnectRevokes` | server-simple.js:347-353 | after a socket leaves, what it sends is refused and changes nothing, while other sessions keep their standing |
| `SimpleServer.MovesConserveTotal` | server-simple.js:210-283 | any run of transfers, bank transfers and bank divisions, from any sockets and with any database outcome, keeps the total of the six balances |
| `Client.Truncate` | script.js:551-553 | the list is cut to its first `cap` entries when it is longer |
| `Client.PushBounded` | script.js:546-557 | the new entry comes first, then the old entries in order, at most `cap` in all |
| `Client.AddToHistory` | script.js:546-557 | the new entry first, then the previous entries in order, with length exactly `min(|h| + 1, 10)` |
| `Client.LogUser` | script.js:1067 | the recorded user is the explicit truthy one, else the signed-in name, else `Sistema` |
| `Client.LogUserNamesSomeone` | script.js:1067 | the log never records an empty user when the signed-in name is not empty |
| `Client.LogOperation` | script.js:1063-1076 | the new entry first with the chosen user, then the old entries in order, with length exactly `min(|ops| + 1, 50)` |
| `Client.PushAllNewestFirst` | script.js:1063-1076 | any run of pushes leaves the pushed entries newest first, then the old list, cut at the cap |
| `Client.PercentOf` | script.js:749-752 | `floor(b * p / 100)` is the integer just below the exact share |
| `Client.HandleAction` | script.js:384-403 | add is always sent; subtract is sent exactly when the balance covers the amount (the intended path of the quick actions, not reached as written: see Findings) |
| `Client.SubtractGuardKeepsNonNegative` | script.js:391-402 | a subtraction the client sends lowers the server's balance by exactly the amount (on the intended path, not reached as written: see Findings) |
| `Client.TransferFromModal` | script.js:745-775 | a transfer is sent exactly for a percentage in 1..100, a chosen destination and a source covering the floored amount |
| `Client.TransferGuardPassesNonNegative` | script.js:749-767 | a non-negative source never trips the balance check, and the amount lies between zero and the source |
| `Client.ClientTransferKeepsSourceNonNegative` | script.js:760-767 | the server applies a client transfer leaving the source non-negative and the total unchanged |
| `Client.AddPercentageOfOther` | script.js:802-824 | the set is sent exactly for a chosen source and a valid percentage, adding the floored share |
| `Client.AddPercentageOfOtherOnServer` | script.js:802-824 | the server sets the counter to its balance plus the floored share and touches nothing else; a non-negative source never lowers the counter |
| `Client.SubtractPercentageOfOther` | script.js:852-878 | the set is sent exactly when the counter covers the floored share, so its value is non-negative |
| `Client.SubtractPercentageOfOtherOnServer` | script.js:852-878 | the server lowers the counter by exactly the floored share of the other counter, never below zero, and touches nothing else; a non-negative source never raises the counter |
| `Client.DepositToBank` | script.js:900-927 | a valid percentage sends two sets that keep the counter-plus-bank sum and move the floored share |
| `Client.DepositConservesTotal` | script.js:907-917 | the two sets applied in order conserve the total |
| `Client.Duplicate` | script.js:930-937 | set to twice the balance |
| `Client.LoseHalf` | script.js:939-947 | set to the integral half, rounded down |
| `Client.LoseHalfAfterDuplicate` | script.js:930-947 | losing half of a doubled balance restores it exactly when it was integral |
| `Client.SetBalance` | script.js:965-978 | sent exactly for a parsed non-negative value |
| `Client.SetBalanceOnServer` | script.js:965-978 | the server ends with exactly the typed value, never negative, and nothing else changes |
| `Client.ApplySwap` | script.js:1023-1043 | refused exactly when both sides are the same counter |
| `Client.ClientSwapExchanges` | script.js:1032-1036 | the server exchanges the two balances and keeps the total |
| `Client.AmountModal` | script.js:682-717 | any positive whole number passes; the percentage actions send exact shares; the amount actions go through `handleAction` (the intended path, not reached as written: see Findings) |
| `Client.ModalDepositMovesNothing` | script.js:685-693 | the modal's deposit names the bank, yet the in-memory server applies no balance change for it (on the intended path, not reached as written: see Findings) |
| `Client.ResetAll` | script.js:626-634 | a confirmed reset sends `reset` with no counter |
| `Client.ResetAllNeedsAdmin` | script.js:626-634 | the reset passes on the in-memory server exactly for an admin with no other user's global lock up, and then restores the starting balances |
| `Client.Changed` | script.js:993-999 | the orders for the given fields are exactly those whose parsed value differs from the balance, each carrying that value; over distinct fields no counter is ordered twice |
| `Client.ChangedOrdersEachCounterOnce` | script.js:993-999 | one pass over distinct fields orders no counter twice |
| `Client.ApplyAmounts` | script.js:989-1016 | a `set` goes out for every field whose parsed value differs from the balance shown, `NaN` included, and for no other, and at most once per counter |
| `Client.OrderMessage` | script.js:1006-1010 | an order with a number becomes a `set` of that counter to that number; a `NaN` order gives no message (see Left out) |
| `Client.ParseShown` | script.js:981-994 | `parseInt` of a balance written into a field truncates toward zero: the result is within one of the balance, below it for a non-negative balance and above it for a negative one |
| `Client.ParseShownTruncates` | script.js:994 | unlike `Math.floor`, the read-back is symmetric about zero, and it returns the balance exactly when the balance is whole |
| `Client.TypedInto` | script.js:981-994 | the fields hold the typed value for the edited counter and, for every other counter, the `parseInt` read-back of the balance `showAmountModal` filled in |
| `Client.OnlyTypedFieldDiffers` | script.js:981-997 | with whole balances, after the modal is filled with the balances and one field is changed to a new value, that field is the only one whose parsed value differs from its balance |
| `Client.QuickSubtractCanSetNegative` | script.js:367-369 | as written the subtract button opens the set-amounts modal: with whole balances, typing -1 in the counter's field and leaving the others as filled in sends exactly one `set`, which drives the counter below zero |

## Left out

- Database I/O is reduced to success flags per request (`Store`): SQLite, the schema, its persistence and the lock mirror table. The timestamps are left out too.
- Socket plumbing is left out: broadcasts, notifications, `auth_success` payloads and console logging. Outcomes stand for what the requester is told.
- Asynchronous interleavings are left out. Each handler is one atomic step, while the source reads and writes the database in separate callbacks.
- Floating point is replaced by exact rationals. `toLocaleString` and rounding in the browser are left out.
- Requests naming a counter outside the six, or a missing `fromCounter`/`toCounter`/`targetCounter` on a transfer or swap, are left out. JavaScript would write a key `undefined` or produce `NaN`.
- Keys of `amounts` outside the six counters in `set_specific_amounts` are left out.
- The credential table is a parameter (`DbServer.State.accounts`). The hard-coded user names and passwords are left out.
- Client.OrderMessage: an order whose field parsed to `NaN` is sent too, as a `set` whose amount JSON carries as `null`, and server.js:359 then stores `null` as that counter's balance. Balances in the model are numbers only, so the model sends no message for such an order.
- Client.ParseShown: a balance JavaScript writes in exponent notation (magnitude at least 1e21, or a non-zero magnitude below 1e-6) reads back as its leading digit only. The model reads every balance as written out in decimal.
- Sessions.LookupAsWritten: `users['__proto__']` finds `Object.prototype`, which also has no password and so signs in too. Its session would have no `name`, so that user name is left out of `PrototypeMethods`.
- `request_balances_update`, `get_recent_operations`, the express routes and `updateBalancesAndNotify`'s broadcast are left out. They only read.
- The DOM side of script.js is left out: modals, `confirm`, notifications, `localStorage`, rendering, and the client-side start/end global guards. So is the `<option>` list that keeps a transfer's destination apart from its source. The client's copy of the balances is a parameter.
- DbServer.Operation: a failed write is modelled as leaving all balances unchanged while still answering `Ok`. `updateMultipleBalances` (database.js:159-175) runs one UPDATE per counter and may have written some rows before the failure.
- SimpleServer.Operation: a failed row write is modelled as leaving all balances unchanged and rejecting. The source writes the six rows one by one and may have written some of them before the failure.
- The model follows these behaviours of the code:
  - Percentage transfers and deposits in both database-backed servers are not clamped to the source balance.
  - `divide_bank` does not check the bank's balance.
  - No server validates percentage or amount ranges.
  - The database-backed server acknowledges an operation even when the write fails.
  - Its admin global start overrides another holder and does not clear the counter locks.

## Findings

| source | as written | input that shows it | evidently intended | confidence | as-written member | corrected member |
|---|---|---|---|---|---|---|
| server.js:304-319 | a deposit to another counter locks the destination to the sender before checking that the sender may operate the source | operator contador_gallo deposits from leon, held by contador_leon, to a free perro: the request is rejected, yet perro stays locked to contador_gallo | check the source first, so that a rejected request leaves the lock table as it was | medium, not executed | `VariantServer.UpdateBalanceAsWritten`, `VariantServer.DepositRejectionLeavesLock`, `VariantServer.RejectedDepositKeepsAutoLock` | `VariantServer.UpdateBalance`, `VariantServer.Authorize` |
| server-db.js:200-202 | `users[username]` (here and at server-simple.js:163-165) also finds the methods every object inherits from `Object.prototype`, which have no `password` | authenticate with user name `constructor` and no password: `user` is the `Object` function and `undefined === undefined`, so the socket is bound as a non-admin named `Object` with no counter, which may then start and operate free counters | only the table's own rows are user names | high, not executed | `Sessions.AuthenticateAsWritten`, `Sessions.PrototypeNameSignsIn` | `Sessions.Authenticate`, `Sessions.NoPasswordNoSession`, `DbServer.SignIn` |
| script.js:981-987 | the class defines `showAmountModal` twice (at 636 and 981); the later, argument-less definition replaces the three-argument one, so the quick actions at 361-369 open the set-amounts modal, and the confirm handler at 682-717 and the `add`/`subtract` arms of `handleAction` never run | click "Restar Monto" on a counter holding 0 and type -1 in its field: `applyAmounts` sends `set` -1 with no balance check | the quick actions open the operation modal and go through `handleAction`, whose subtraction is sent only when the balance covers it | high, not executed | `Client.ApplyAmounts`, `Client.QuickSubtractCanSetNegative` | `Client.AmountModal`, `Client.HandleAction`, `Client.SubtractGuardKeepsNonNegative` |

=== FILE: client.dfy ===
/** The browser client of the in-memory server: its two newest-first
    history lists and the guards that turn what the user typed into an
    `update_balance` message, or into nothing. The client's own copy of the
    balances is a parameter; `parseInt` results are `Option<int>`, with
    `None` for `NaN`; a `<select>` left on its empty option is `None`. */
module Client {
  import opened Domain
  import opened Sessions
  import opened VariantServer

  // ---------------------------------------------------------------------
  // Bounded history lists
  // ---------------------------------------------------------------------

  /** `slice(0, cap)` when the list has grown past `cap`. */
  function Truncate<T>(s: seq<T>, cap: nat): (r: seq<T>)
    ensures |r| == if |s| > cap then cap else |s|
    ensures r == s[..|r|]
  {
    if |s| > cap then s[..cap] else s
  }

  /** `unshift` followed by the truncation: the new entry first, then the
      previous entries in their order, at most `cap` of everything. */
  function PushBounded<T>(h: seq<T>, e: T, cap: nat): (r: seq<T>)
    ensures |r| == if |h| + 1 > cap then cap else |h| + 1
    ensures cap > 0 ==> r[0] == e
    ensures forall i :: 1 <= i < |r| ==> r[i] == h[i - 1]
  {
    Truncate([e] + h, cap)
  }

  /** The size of the recent-operations panel. */
  const HistoryCap: nat := 10
  /** The size of the stored operations log. */
  const LogCap: nat := 50

  /** `addToOperationHistory`. */
  function AddToHistory<T>(h: seq<T>, e: T): (r: seq<T>)
    ensures |r| == if |h| < HistoryCap then |h| + 1 else HistoryCap
    ensures r[0] == e
    ensures forall i :: 1 <= i < |r| ==> r[i] == h[i - 1]
  {
    PushBounded(h, e, HistoryCap)
  }

  /** An entry of the operations log; the timestamp is the caller's clock. */
  datatype LogEntry = LogEntry(at: int, description: string, user: string)

  /** The name `logOperation` records: an explicit truthy `user`, else the
      signed-in user's name, else `Sistema`. */
  function LogUser(user: Option<string>, current: Option<Session>): (r: string)
    ensures user.Some? && user.value != "" ==> r == user.value
    ensures (user.None? || user.value == "") && current.Some? ==> r == current.value.name
    ensures (user.None? || user.value == "") && current.None? ==> r == "Sistema"
  {
    if user.Some? && user.value != "" then user.value
    else if current.Some? then current.value.name
    else "Sistema"
  }

  /** The log always names someone: an explicit name, the signed-in
      user's name or `Sistema`, whichever applies first. */
  lemma LogUserNamesSomeone(user: Option<string>, current: Option<Session>)
    requires current.None? || current.value.name != ""
    ensures LogUser(user, current) != ""
    ensures LogUser(user, current) == "Sistema" ==> current.None? || current.value.name == "Sistema" || user == Some("Sistema")
  {
  }

  /** `logOperation`. */
  function LogOperation(ops: seq<LogEntry>, now: int, description: string,
                        user: Option<string>, current: Option<Session>): (r: seq<LogEntry>)
    ensures |r| == if |ops| < LogCap then |ops| + 1 else LogCap
    ensures r[0] == LogEntry(now, description, LogUser(user, current))
    ensures forall i :: 1 <= i < |r| ==> r[i] == ops[i - 1]
  {
    PushBounded(ops, LogEntry(now, description, LogUser(user, current)), LogCap)
  }

  /** `s` in reverse order. */
  function Reverse<T>(s: seq<T>): (r: seq<T>)
    ensures |r| == |s|
    ensures forall i :: 0 <= i < |s| ==> r[i] == s[|s| - 1 - i]
  {
    if s == [] then [] else Reverse(s[1..]) + [s[0]]
  }

  /** Pushing the entries `es` one after another. */
  function PushAll<T>(h: seq<T>, es: seq<T>, cap: nat): seq<T>
    decreases |es|
  {
    if es == [] then h else PushAll(PushBounded(h, es[0], cap), es[1..], cap)
  }

  lemma TruncateAbsorbs<T>(a: seq<T>, b: seq<T>, cap: nat)
    ensures Truncate(a + Truncate(b, cap), cap) == Truncate(a + b, cap)
  {
    var l := Truncate(a + b, cap);
    var l' := Truncate(a + Truncate(b, cap), cap);
    assert |l'| == |l|;
    forall i | 0 <= i < |l|
      ensures l'[i] == l[i]
    {
      if i >= |a| {
        assert l'[i] == (a + Truncate(b, cap))[i] == Truncate(b, cap)[i - |a|];
      }
    }
  }

  lemma ReverseFront<T>(s: seq<T>)
    requires s != []
    ensures Reverse(s) == Reverse(s[1..]) + [s[0]]
  {
  }

  lemma AppendAssoc<T>(a: seq<T>, b: seq<T>, c: seq<T>)
    ensures a + (b + c) == (a + b) + c
  {
  }

  /** A run of pushes keeps the most recent `cap` entries, newest first:
      the list is the pushed entries reversed, then the old list, cut at
      `cap`, for any starting list within the bound. */
  lemma {:induction false} PushAllNewestFirst<T>(h: seq<T>, es: seq<T>, cap: nat)
    requires |h| <= cap
    ensures PushAll(h, es, cap) == Truncate(Reverse(es) + h, cap)
    decreases |es|
  {
    if es != [] {
      var rest := es[1..];
      var h' := PushBounded(h, es[0], cap);
      assert PushAll(h, es, cap) == PushAll(h', rest, cap);
      PushAllNewestFirst(h', rest, cap);
      assert h' == Truncate([es[0]] + h, cap);
      TruncateAbsorbs(Reverse(rest), [es[0]] + h, cap);
      ReverseFront(es);
      AppendAssoc(Reverse(rest), [es[0]], h);
    }
  }

  // ---------------------------------------------------------------------
  // Guards in front of `update_balance`
  // ---------------------------------------------------------------------

  /** `Math.floor(balance * (percentage / 100))`. */
  function PercentOf(balance: real, percentage: int): (r: real)
    ensures r.Floor as real == r
    ensures r <= balance * (percentage as real / 100.0) < r + 1.0
  {
    (balance * (percentage as real / 100.0)).Floor as real
  }

  /** A whole percentage inside the 1..100 range the modals ask for. */
  predicate ValidPercentage(p: Option<int>) {
    p.Some? && 0 < p.value <= 100
  }

  /** A `set` of one counter. Messages carry the counters they do not use
      as `from`/`to` filler; the server reads those only for transfers and
      swaps. */
  function SetMessage(c: Counter, amount: real): UpdateRequest {
    UpdateRequest(SetTo, Some(c), amount, None, c, c)
  }

  datatype QuickAction = QuickAdd | QuickSubtract

  /** The `add` and `subtract` arms of `handleAction`: a subtraction is sent
      only when the counter holds at least the amount. */
  function HandleAction(b: Balances, action: QuickAction, c: Counter, value: real): (r: Option<UpdateRequest>)
    ensures action == QuickAdd ==> r == Some(UpdateRequest(Add, Some(c), value, None, c, c))
    ensures action == QuickSubtract ==>
              (r.Some? <==> b.Get(c) >= value)
              && (r.Some? ==> r.value == UpdateRequest(Subtract, Some(c), value, None, c, c))
  {
    match action
    case QuickAdd => Some(UpdateRequest(Add, Some(c), value, None, c, c))
    case QuickSubtract =>
      if b.Get(c) >= value then Some(UpdateRequest(Subtract, Some(c), value, None, c, c)) else None
  }

  /** A subtraction the client sends leaves the counter non-negative on the
      server, when both hold the same balances and the amount is not negative. */
  lemma SubtractGuardKeepsNonNegative(b: Balances, c: Counter, value: real)
    requires b.Get(c) >= 0.0
    requires HandleAction(b, QuickSubtract, c, value).Some?
    ensures ApplyUpdate(b, HandleAction(b, QuickSubtract, c, value).value).Get(c) == b.Get(c) - value
  {
  }

  /** `showTransferModal` then `transferPercentage`: a whole percentage in
      1..100 and a chosen destination, an amount of `floor(b * p / 100)`,
      and a message only when the source holds that much. */
  function TransferFromModal(b: Balances, from: Counter, percentage: Option<int>, to: Option<Counter>): (r: Option<UpdateRequest>)
    ensures r.Some? <==> ValidPercentage(percentage) && to.Some?
                         && b.Get(from) >= PercentOf(b.Get(from), percentage.value)
    ensures r.Some? ==> r.value.kind == Transfer && r.value.from == from && r.value.to == to.value
                        && r.value.counter.None?
                        && r.value.amount == PercentOf(b.Get(from), percentage.value)
                        && r.value.amount <= b.Get(from)
  {
    if ValidPercentage(percentage) && to.Some? then
      var amount := PercentOf(b.Get(from), percentage.value);
      if b.Get(from) >= amount then Some(UpdateRequest(Transfer, None, amount, None, from, to.value)) else None
    else None
  }

  /** A non-negative source never trips the balance check: with a valid
      percentage and a destination the transfer is always sent, and its
      amount is not negative. */
  lemma TransferGuardPassesNonNegative(b: Balances, from: Counter, p: int, to: Counter)
    requires b.Get(from) >= 0.0 && 0 < p <= 100
    ensures TransferFromModal(b, from, Some(p), Some(to)).Some?
    ensures 0.0 <= TransferFromModal(b, from, Some(p), Some(to)).value.amount <= b.Get(from)
  {
    var v, f := b.Get(from), p as real / 100.0;
    assert 0.0 < f <= 1.0;
    assert 0.0 <= v * f <= v by {
      assert v * (1.0 - f) >= 0.0;
    }
    var a := PercentOf(v, p);
    assert a > -1.0;
    assert TransferFromModal(b, from, Some(p), Some(to)) == Some(UpdateRequest(Transfer, None, a, None, from, to));
  }

  /** What the server does with a transfer the client sends: the source ends
      non-negative and the total is unchanged. */
  lemma ClientTransferKeepsSourceNonNegative(b: Balances, from: Counter, p: Option<int>, to: Option<Counter>)
    requires TransferFromModal(b, from, p, to).Some? && to != Some(from)
    ensures ApplyUpdate(b, TransferFromModal(b, from, p, to).value).Get(from) >= 0.0
    ensures ApplyUpdate(b, TransferFromModal(b, from, p, to).value).Total() == b.Total()
  {
  }

  /** "Add a percentage of another counter": `set` the counter to its
      balance plus `floor(b[from] * p / 100)`; no balance check. */
  function AddPercentageOfOther(b: Balances, c: Counter, from: Option<Counter>, percentage: Option<int>): (r: Option<UpdateRequest>)
    ensures r.Some? <==> from.Some? && ValidPercentage(percentage)
    ensures r.Some? ==> r.value == SetMessage(c, b.Get(c) + PercentOf(b.Get(from.value), percentage.value))
  {
    if from.Some? && ValidPercentage(percentage) then
      Some(SetMessage(c, b.Get(c) + PercentOf(b.Get(from.value), percentage.value)))
    else None
  }

  /** On the server the message sets the counter to its balance plus the
      floored share of the other counter, and touches nothing else; with a
      non-negative source it never lowers the counter. */
  lemma AddPercentageOfOtherOnServer(b: Balances, c: Counter, from: Option<Counter>, p: Option<int>)
    requires AddPercentageOfOther(b, c, from, p).Some?
    ensures ApplyUpdate(b, AddPercentageOfOther(b, c, from, p).value).Get(c)
            == b.Get(c) + PercentOf(b.Get(from.value), p.value)
    ensures forall d :: d != c ==> ApplyUpdate(b, AddPercentageOfOther(b, c, from, p).value).Get(d) == b.Get(d)
    ensures b.Get(from.value) >= 0.0 ==> ApplyUpdate(b, AddPercentageOfOther(b, c, from, p).value).Get(c) >= b.Get(c)
  {
    var v, f := b.Get(from.value), p.value as real / 100.0;
    if v >= 0.0 {
      assert v * f >= 0.0;
      assert PercentOf(v, p.value) > -1.0;
    }
  }

  /** "Subtract a percentage of another counter": sent only when the
      counter holds at least the computed amount, so the value it sets is
      never negative. */
  function SubtractPercentageOfOther(b: Balances, c: Counter, from: Option<Counter>, percentage: Option<int>): (r: Option<UpdateRequest>)
    ensures r.Some? <==> from.Some? && ValidPercentage(percentage)
                         && b.Get(c) >= PercentOf(b.Get(from.value), percentage.value)
    ensures r.Some? ==> r.value.kind == SetTo && r.value.counter == Some(c) && r.value.amount >= 0.0
                        && r.value.amount == b.Get(c) - PercentOf(b.Get(from.value), percentage.value)
  {
    if from.Some? && ValidPercentage(percentage) then
      var amount := PercentOf(b.Get(from.value), percentage.value);
      if b.Get(c) >= amount then Some(SetMessage(c, b.Get(c) - amount)) else None
    else None
  }

  /** On the server the message leaves the counter lowered by exactly the
      floored share of the other counter and never below zero, and touches
      nothing else; with a non-negative source it never raises the counter. */
  lemma SubtractPercentageOfOtherOnServer(b: Balances, c: Counter, from: Option<Counter>, p: Option<int>)
    requires SubtractPercentageOfOther(b, c, from, p).Some?
    ensures ApplyUpdate(b, SubtractPercentageOfOther(b, c, from, p).value).Get(c)
            == b.Get(c) - PercentOf(b.Get(from.value), p.value)
    ensures ApplyUpdate(b, SubtractPercentageOfOther(b, c, from, p).value).Get(c) >= 0.0
    ensures forall d :: d != c ==> ApplyUpdate(b, SubtractPercentageOfOther(b, c, from, p).value).Get(d) == b.Get(d)
    ensures b.Get(from.value) >= 0.0 ==> ApplyUpdate(b, SubtractPercentageOfOther(b, c, from, p).value).Get(c) <= b.Get(c)
  {
    assert ValidPercentage(p);
    var v, f := b.Get(from.value), p.value as real / 100.0;
    if v >= 0.0 {
      assert f > 0.0;
      assert v * f >= 0.0;
      assert PercentOf(v, p.value) > -1.0;
    }
  }

  /** "Deposit a percentage in the bank": two `set` messages, the counter
      down by `floor(b * p / 100)` and the bank up by the same amount. */
  function DepositToBank(b: Balances, from: Counter, percentage: Option<int>): (r: seq<UpdateRequest>)
    ensures |r| == 0 || |r| == 2
    ensures |r| == 2 <==> ValidPercentage(percentage)
    ensures |r| == 2 ==> r[0].kind == SetTo && r[0].counter == Some(from)
                         && r[1].kind == SetTo && r[1].counter == Some(Bank)
                         && r[0].amount + r[1].amount == b.Get(from) + b.Get(Bank)
                         && r[1].amount - b.Get(Bank) == PercentOf(b.Get(from), percentage.value)
  {
    if ValidPercentage(percentage) then
      var d := PercentOf(b.Get(from), percentage.value);
      [SetMessage(from, b.Get(from) - d), SetMessage(Bank, b.Get(Bank) + d)]
    else []
  }

  /** Applied in order on the server, the two deposit messages conserve the
      total whenever the counter is not the bank itself. */
  lemma DepositConservesTotal(b: Balances, from: Counter, p: int)
    requires from != Bank && 0 < p <= 100
    ensures var m := DepositToBank(b, from, Some(p));
            ApplyUpdate(ApplyUpdate(b, m[0]), m[1]).Total() == b.Total()
  {
    var m := DepositToBank(b, from, Some(p));
    var d := PercentOf(b.Get(from), p);
    PutTotal(b, from, b.Get(from) - d);
    PutTotal(ApplyUpdate(b, m[0]), Bank, b.Get(Bank) + d);
  }

  /** `duplicateBalance`: `set` to twice the balance. */
  function Duplicate(b: Balances, c: Counter): (r: UpdateRequest)
    ensures r.kind == SetTo && r.counter == Some(c) && r.amount == 2.0 * b.Get(c)
  {
    SetMessage(c, b.Get(c) * 2.0)
  }

  /** `loseHalfBalance`: `set` to the integral half, rounded down. */
  function LoseHalf(b: Balances, c: Counter): (r: UpdateRequest)
    ensures r.kind == SetTo && r.counter == Some(c)
    ensures r.amount.Floor as real == r.amount
    ensures 2.0 * r.amount <= b.Get(c) < 2.0 * r.amount + 2.0
  {
    SetMessage(c, FloorHalf(b.Get(c)))
  }

  /** Losing half of a doubled balance gives the balance back exactly when
      it was integral. */
  lemma LoseHalfAfterDuplicate(b: Balances, c: Counter)
    ensures LoseHalf(b.Put(c, Duplicate(b, c).amount), c).amount == b.Get(c)
            <==> b.Get(c).Floor as real == b.Get(c)
  {
    FloorHalfOfDouble(b.Get(c));
  }

  /** `showSetBalanceModal`: only a parsed, non-negative value is sent. */
  function SetBalance(c: Counter, value: Option<int>): (r: Option<UpdateRequest>)
    ensures r.Some? <==> value.Some? && value.value >= 0
    ensures r.Some? ==> r.value == SetMessage(c, value.value as real) && r.value.amount >= 0.0
  {
    if value.Some? && value.value >= 0 then Some(SetMessage(c, value.value as real)) else None
  }

  /** On the server the value typed is what the counter ends with, never
      negative, and nothing else changes. */
  lemma SetBalanceOnServer(b: Balances, c: Counter, value: Option<int>)
    requires SetBalance(c, value).Some?
    ensures ApplyUpdate(b, SetBalance(c, value).value).Get(c) == value.value as real >= 0.0
    ensures forall d :: d != c ==> ApplyUpdate(b, SetBalance(c, value).value).Get(d) == b.Get(d)
  {
  }

  /** `applySwap`: a counter is never swapped with itself. */
  function ApplySwap(from: Counter, to: Counter): (r: Option<UpdateRequest>)
    ensures r.None? <==> from == to
    ensures r.Some? ==> r.value.kind == Swap && r.value.from == from && r.value.to == to
                        && r.value.counter.None?
  {
    if from == to then None else Some(UpdateRequest(Swap, None, 0.0, None, from, to))
  }

  /** The swap the client sends exchanges the two balances on the server. */
  lemma ClientSwapExchanges(b: Balances, from: Counter, to: Counter)
    requires ApplySwap(from, to).Some?
    ensures ApplyUpdate(b, ApplySwap(from, to).value).Get(from) == b.Get(to)
    ensures ApplyUpdate(b, ApplySwap(from, to).value).Get(to) == b.Get(from)
    ensures ApplyUpdate(b, ApplySwap(from, to).value).Total() == b.Total()
  {
  }

  /** The actions of the generic amount modal. */
  datatype ModalAction = ToBank | AddPercentSelf | SubtractPercentSelf | Amount(action: QuickAction)

  /** The confirm button of the generic amount modal. Any positive whole
      number passes: the 1..100 bound on the percentage inputs is an input
      attribute only. Percentages become `b * p / 100`, not floored. */
  function AmountModal(b: Balances, c: Counter, action: ModalAction, value: Option<int>): (r: Option<UpdateRequest>)
    ensures value.None? || value.value <= 0 ==> r.None?
    ensures value.Some? && value.value > 0 && !action.Amount? ==> r.Some?
    ensures r.Some? && action == ToBank ==>
              r.value == UpdateRequest(Deposit, Some(c), Share(b.Get(c), value.value as real), Some(Bank), c, c)
    ensures r.Some? && action == AddPercentSelf ==>
              r.value.kind == Add && r.value.amount == Share(b.Get(c), value.value as real)
    ensures r.Some? && action == SubtractPercentSelf ==>
              r.value.kind == Subtract && r.value.amount == Share(b.Get(c), value.value as real)
    ensures value.Some? && value.value > 0 && action.Amount? ==>
              r == HandleAction(b, action.action, c, value.value as real)
  {
    if value.None? || value.value <= 0 then None
    else
      var p := value.value as real;
      match action
      case ToBank => Some(UpdateRequest(Deposit, Some(c), Share(b.Get(c), p), Some(Bank), c, c))
      case AddPercentSelf => Some(UpdateRequest(Add, Some(c), Share(b.Get(c), p), None, c, c))
      case SubtractPercentSelf => Some(UpdateRequest(Subtract, Some(c), Share(b.Get(c), p), None, c, c))
      case Amount(a) => HandleAction(b, a, c, p)
  }

  /** The modal's deposit to the bank names the bank as its target, yet the
      server's `update_balance` has no `deposit` arm: the message changes
      no balance. */
  lemma ModalDepositMovesNothing(b: Balances, c: Counter, p: int)
    requires p > 0
    ensures ApplyUpdate(b, AmountModal(b, c, ToBank, Some(p)).value) == b
  {
  }

  /** `resetAllBalances`, once confirmed: a `reset` with no `counter`. */
  function ResetAll(confirmed: bool): (r: Option<UpdateRequest>)
    ensures r.Some? <==> confirmed
    ensures r.Some? ==> r.value.kind == Reset && r.value.counter.None?
  {
    if confirmed then Some(UpdateRequest(Reset, None, 0.0, None, Bank, Bank)) else None
  }

  /** On the server a reset names no counter, so it passes exactly for an
      admin with no other user's global lock up, and then restores the
      starting balances. */
  lemma ResetAllNeedsAdmin(s: State, socket: SocketId)
    ensures UpdateBalance(s, socket, ResetAll(true).value).1 == Ok
            <==> ActorRole(s, socket) == Admin
                 && (!s.locks.global.isLocked || s.locks.global.lockedBy == Some(ActorName(s, socket)))
    ensures UpdateBalance(s, socket, ResetAll(true).value).1 == Ok ==>
              UpdateBalance(s, socket, ResetAll(true).value).0.balances == Initial()
  {
  }

  // ---------------------------------------------------------------------
  // The set-amounts modal
  // ---------------------------------------------------------------------

  /** The order of `Object.keys(this.balances)`: the server's balance object. */
  const BalanceKeys: seq<Counter> := [Bank, Gallo, Leon, Perro, Mano, Estrella]

  /** What `parseInt` reads from the six fields of the set-amounts modal;
      `None` is `NaN`. */
  datatype Fields = Fields(bank: Option<int>, gallo: Option<int>, leon: Option<int>,
                           perro: Option<int>, mano: Option<int>, estrella: Option<int>)
  {
    function Get(c: Counter): Option<int> {
      match c
      case Bank => bank
      case Gallo => gallo
      case Leon => leon
      case Perro => perro
      case Mano => mano
      case Estrella => estrella
    }
  }

  /** One `set` that `applyAmounts` sends; an `amount` of `None` is a field
      that parsed to `NaN`. */
  datatype SetOrder = SetOrder(counter: Counter, amount: Option<int>)

  /** A field's parsed value differs from the balance shown; `NaN` differs
      from everything. */
  predicate Differs(b: Balances, c: Counter, v: Option<int>) {
    v.None? || v.value as real != b.Get(c)
  }

  /** No two orders of `r` are for the same counter. */
  predicate DistinctCounters(r: seq<SetOrder>) {
    forall i, j :: 0 <= i < j < |r| ==> r[i].counter != r[j].counter
  }

  /** No counter appears twice in `keys`. */
  predicate NoRepeats(keys: seq<Counter>) {
    forall i, j :: 0 <= i < j < |keys| ==> keys[i] != keys[j]
  }

  /** Some order of `r` is for counter `c`. */
  predicate SentTo(r: seq<SetOrder>, c: Counter) {
    exists i :: 0 <= i < |r| && r[i].counter == c
  }

  /** The orders for the fields in `keys` whose value changed, in order. */
  function Changed(b: Balances, typed: Fields, keys: seq<Counter>): (r: seq<SetOrder>)
    ensures |r| <= |keys|
    ensures forall i :: 0 <= i < |r| ==>
              r[i].counter in keys && r[i].amount == typed.Get(r[i].counter) && Differs(b, r[i].counter, r[i].amount)
    ensures forall c :: c in keys && Differs(b, c, typed.Get(c)) ==> SentTo(r, c)
    decreases |keys|
  {
    if keys == [] then []
    else
      var rest := Changed(b, typed, keys[1..]);
      var head := if Differs(b, keys[0], typed.Get(keys[0])) then [SetOrder(keys[0], typed.Get(keys[0]))] else [];
      assert forall c :: SentTo(rest, c) ==> SentTo(head + rest, c) by {
        forall c | SentTo(rest, c) ensures SentTo(head + rest, c) {
          var i :| 0 <= i < |rest| && rest[i].counter == c;
          assert (head + rest)[|head| + i] == rest[i];
        }
      }
      assert head != [] ==> (head + rest)[0].counter == keys[0];
      assert forall c :: c in keys ==> c == keys[0] || c in keys[1..];
      head + rest
  }

  /** One pass over distinct fields orders each counter at most once. */
  lemma {:induction false} ChangedOrdersEachCounterOnce(b: Balances, typed: Fields, keys: seq<Counter>)
    requires NoRepeats(keys)
    ensures DistinctCounters(Changed(b, typed, keys))
    decreases |keys|
  {
    if keys != [] {
      var rest := Changed(b, typed, keys[1..]);
      var head: seq<SetOrder> := if Differs(b, keys[0], typed.Get(keys[0])) then [SetOrder(keys[0], typed.Get(keys[0]))] else [];
      assert Changed(b, typed, keys) == head + rest;
      assert NoRepeats(keys[1..]) by {
        forall i, j | 0 <= i < j < |keys[1..]| ensures keys[1..][i] != keys[1..][j] {
          assert keys[1..][i] == keys[i + 1] && keys[1..][j] == keys[j + 1];
        }
      }
      ChangedOrdersEachCounterOnce(b, typed, keys[1..]);
      assert keys[0] !in keys[1..] by {
        forall k | 0 <= k < |keys[1..]| ensures keys[1..][k] != keys[0] {
          assert keys[1..][k] == keys[k + 1];
        }
      }
      forall i, j | 0 <= i < j < |head + rest| ensures (head + rest)[i].counter != (head + rest)[j].counter {
        assert (head + rest)[j] == rest[j - |head|];
        assert rest[j - |head|].counter in keys[1..];
        if i >= |head| {
          assert (head + rest)[i] == rest[i - |head|];
        }
      }
    }
  }

  /** `applyAmounts`: the modal holds one field per counter, and a `set`
      goes out for every field whose parsed value differs from the balance
      shown, and for no other. `typed` is what `parseInt` reads from each
      field. The model lists the orders and leaves out the log entries and
      notifications. */
  function ApplyAmounts(b: Balances, typed: Fields): (r: seq<SetOrder>)
    ensures |r| <= 6
    ensures forall i :: 0 <= i < |r| ==> r[i].amount == typed.Get(r[i].counter) && Differs(b, r[i].counter, r[i].amount)
    ensures forall c :: Differs(b, c, typed.Get(c)) <==> SentTo(r, c)
    ensures DistinctCounters(r)
  {
    EveryCounterHasAField();
    ChangedOrdersEachCounterOnce(b, typed, BalanceKeys);
    Changed(b, typed, BalanceKeys)
  }

  lemma EveryCounterHasAField()
    ensures forall c :: c in BalanceKeys
    ensures NoRepeats(BalanceKeys)
  {
    forall c ensures c in BalanceKeys {
      var i := match c
        case Bank => 0 case Gallo => 1 case Leon => 2 case Perro => 3 case Mano => 4 case Estrella => 5;
      assert BalanceKeys[i] == c;
    }
  }

  /** The `set` an order becomes on the wire; the model has no `NaN` amount. */
  function OrderMessage(o: SetOrder): (r: Option<UpdateRequest>)
    ensures o.amount.Some? <==> r.Some?
    ensures r.Some? ==> r.value == SetMessage(o.counter, o.amount.value as real)
  {
    if o.amount.Some? then Some(SetMessage(o.counter, o.amount.value as real)) else None
  }

  /** `parseInt` of a balance written into a field: the digits before the
      decimal point, so the number truncated toward zero. */
  function ParseShown(x: real): (r: int)
    ensures 0.0 <= x ==> r as real <= x < r as real + 1.0
    ensures x < 0.0 ==> r as real - 1.0 < x <= r as real
  {
    if x >= 0.0 then x.Floor else -((-x).Floor)
  }

  /** Unlike `Math.floor`, the read-back is symmetric about zero, and it
      gives the balance back exactly when the balance is whole. */
  lemma ParseShownTruncates(x: real)
    ensures ParseShown(-x) == -ParseShown(x)
    ensures ParseShown(x) as real == x <==> x.Floor as real == x
  {
    if x > 0.0 {
      assert ParseShown(-x) == -(x.Floor);
    } else if x < 0.0 {
      assert ParseShown(-x) == (-x).Floor;
    }
    if x.Floor as real == x {
      assert (-x).Floor == -(x.Floor);
    }
  }

  /** The modal's fields after the user types `v` into the field of `c`
      and leaves the others as `showAmountModal` filled them in, each read
      back by `parseInt`. */
  function TypedInto(b: Balances, c: Counter, v: int): (r: Fields)
    ensures r.Get(c) == Some(v)
    ensures forall d :: d != c ==> r.Get(d) == Some(ParseShown(b.Get(d)))
  {
    var shown := Fields(Some(ParseShown(b.bank)), Some(ParseShown(b.gallo)), Some(ParseShown(b.leon)),
                        Some(ParseShown(b.perro)), Some(ParseShown(b.mano)), Some(ParseShown(b.estrella)));
    match c
    case Bank => shown.(bank := Some(v))
    case Gallo => shown.(gallo := Some(v))
    case Leon => shown.(leon := Some(v))
    case Perro => shown.(perro := Some(v))
    case Mano => shown.(mano := Some(v))
    case Estrella => shown.(estrella := Some(v))
  }

  /** With whole balances, the only field that differs from the balance
      shown is the one the user typed a new value into. */
  lemma OnlyTypedFieldDiffers(b: Balances, c: Counter, v: int)
    requires forall d :: b.Get(d).Floor as real == b.Get(d)
    requires v as real != b.Get(c)
    ensures forall d :: Differs(b, d, TypedInto(b, c, v).Get(d)) <==> d == c
  {
    var typed := TypedInto(b, c, v);
    forall d ensures Differs(b, d, typed.Get(d)) <==> d == c {
      if d != c {
        assert typed.Get(d) == Some(ParseShown(b.Get(d)));
        ParseShownTruncates(b.Get(d));
      }
    }
  }

  /** The first two of distinct orders are for different counters. */
  lemma FirstTwoDiffer(r: seq<SetOrder>)
    requires DistinctCounters(r) && |r| >= 2
    ensures r[0].counter != r[1].counter
  {
  }

  /** Distinct orders that are all for one counter are at most one. */
  lemma OrdersForOneCounter(r: seq<SetOrder>, c: Counter)
    requires DistinctCounters(r)
    requires forall i :: 0 <= i < |r| ==> r[i].counter == c
    ensures |r| <= 1
  {
    if |r| >= 2 {
      FirstTwoDiffer(r);
      assert false;
    }
  }

  /** As the class is written, the later, argument-less `showAmountModal`
      replaces the three-argument one, so the "subtract amount" button opens
      the set-amounts modal. There no balance check stands between the user
      and the server: with whole balances, typing -1 into the counter's
      field sends exactly one `set`, which drives that counter below zero.
      The subtraction guard of `HandleAction` is never reached. */
  lemma QuickSubtractCanSetNegative(b: Balances, c: Counter)
    requires forall d :: b.Get(d).Floor as real == b.Get(d)
    requires b.Get(c) >= 0.0
    ensures SentTo(ApplyAmounts(b, TypedInto(b, c, -1)), c)
    ensures |ApplyAmounts(b, TypedInto(b, c, -1))| == 1
    ensures forall i :: 0 <= i < |ApplyAmounts(b, TypedInto(b, c, -1))| ==>
              ApplyAmounts(b, TypedInto(b, c, -1))[i] == SetOrder(c, Some(-1))
    ensures OrderMessage(SetOrder(c, Some(-1))) == Some(SetMessage(c, -1.0))
    ensures ApplyUpdate(b, SetMessage(c, -1.0)).Get(c) < 0.0
  {
    var typed := TypedInto(b, c, -1);
    OnlyTypedFieldDiffers(b, c, -1);
    var r := ApplyAmounts(b, typed);
    assert Differs(b, c, typed.Get(c));
    forall i | 0 <= i < |r| ensures r[i] == SetOrder(c, Some(-1)) {
      assert Differs(b, r[i].counter, typed.Get(r[i].counter));
    }
    OrdersForOneCounter(r, c);
  }
}

=== FILE: db_ledger.dfy ===
/** The balance switch of the database-backed server's `operation`
    handler: one request and the current balance set give the new balance
    set. Nothing here validates amounts; the server does not either. */
module DbLedger {
  import opened Domain

  datatype OpKind =
    | Add | Subtract | SetTo
    | Transfer | TransferPercentage | DepositToBank
    | Duplicate | Halve | Swap | ResetAll
    | Unknown(name: string)

  /** The fields of an `operation` message the switch reads. */
  datatype Request = Request(kind: OpKind, counter: Counter, amount: real, target: Counter, percentage: real)

  /** The counters an operation of this request may write. */
  function Touched(q: Request): set<Counter> {
    match q.kind
    case Add | Subtract | SetTo | Duplicate | Halve => {q.counter}
    case Transfer | TransferPercentage | Swap => {q.counter, q.target}
    case DepositToBank => {q.counter, Bank}
    case ResetAll => {Bank, Gallo, Leon, Perro, Mano, Estrella}
    case Unknown(_) => {}
  }

  /** The kinds that only move money between counters. */
  predicate Moves(k: OpKind) {
    k.Transfer? || k.TransferPercentage? || k.DepositToBank? || k.Swap?
  }

  /** `amount`, capped at what the source holds. */
  function Available(b: Balances, q: Request): real {
    Min(q.amount, b.Get(q.counter))
  }

  function Apply(b: Balances, q: Request): (r: Balances)
    ensures SameOutside(r, b, Touched(q))
    ensures Moves(q.kind) ==> r.Total() == b.Total()
    ensures q.kind == Transfer && q.counter != q.target ==> r.Get(q.counter) >= 0.0
    // add, set and duplicate leave exactly the new value
    ensures q.kind == Add ==> r.Get(q.counter) == b.Get(q.counter) + q.amount
    ensures q.kind == SetTo ==> r.Get(q.counter) == q.amount
    ensures q.kind == Duplicate ==> r.Get(q.counter) == 2.0 * b.Get(q.counter)
    // subtract takes the amount off when the balance covers it, and otherwise stops at zero
    ensures q.kind == Subtract ==> r.Get(q.counter) >= 0.0
    ensures q.kind == Subtract && q.amount <= b.Get(q.counter) ==> r.Get(q.counter) == b.Get(q.counter) - q.amount
    ensures q.kind == Subtract && q.amount > b.Get(q.counter) ==> r.Get(q.counter) == 0.0
  {
    var c := q.counter;
    match q.kind
    case Add => b.Shift(c, q.amount)
    case Subtract => b.Put(c, Max(0.0, b.Get(c) - q.amount))
    case SetTo => b.Put(c, q.amount)
    case Transfer => Move(b, c, q.target, Available(b, q))
    case TransferPercentage => Move(b, c, q.target, Share(b.Get(c), q.percentage))
    case DepositToBank => Move(b, c, Bank, Share(b.Get(c), q.percentage))
    case Duplicate => b.Put(c, b.Get(c) * 2.0)
    case Halve => b.Put(c, FloorHalf(b.Get(c)))
    case Swap => Exchange(b, c, q.target)
    case ResetAll => Initial()
    case Unknown(_) => b
  }

  /** `transfer` moves `min(amount, balance[from])`: the source keeps
      what it had above the request, the destination gains exactly what the
      source lost. */
  lemma TransferMovesAvailable(b: Balances, q: Request)
    requires q.kind == Transfer && q.counter != q.target
    ensures Available(b, q) <= b.Get(q.counter)
    ensures Apply(b, q).Get(q.counter) == b.Get(q.counter) - Available(b, q)
    ensures Apply(b, q).Get(q.target) == b.Get(q.target) + Available(b, q)
    ensures Apply(b, q).Get(q.counter) + Apply(b, q).Get(q.target) == b.Get(q.counter) + b.Get(q.target)
  {
  }

  /** `transfer_percentage` and `deposit_to_bank` move exactly the share. */
  lemma PercentageMovesShare(b: Balances, q: Request, to: Counter)
    requires (q.kind == TransferPercentage && to == q.target) || (q.kind == DepositToBank && to == Bank)
    requires q.counter != to
    ensures Apply(b, q).Get(q.counter) == b.Get(q.counter) - Share(b.Get(q.counter), q.percentage)
    ensures Apply(b, q).Get(to) == b.Get(to) + Share(b.Get(q.counter), q.percentage)
  {
  }

  /** `swap` exchanges the two balances. */
  lemma SwapExchanges(b: Balances, q: Request)
    requires q.kind == Swap
    ensures Apply(b, q).Get(q.counter) == b.Get(q.target)
    ensures Apply(b, q).Get(q.target) == b.Get(q.counter)
  {
  }

  /** `halve` leaves the integral half rounded down. */
  lemma HalveFloors(b: Balances, q: Request)
    requires q.kind == Halve
    ensures Apply(b, q).Get(q.counter) == FloorHalf(b.Get(q.counter))
    ensures 2.0 * Apply(b, q).Get(q.counter) <= b.Get(q.counter) < 2.0 * Apply(b, q).Get(q.counter) + 2.0
  {
  }

  /** `duplicate` followed by `halve` on the same counter gives back the
      balance set exactly when that balance is integral. */
  lemma DuplicateThenHalve(b: Balances, c: Counter, amount: real, target: Counter, percentage: real)
    ensures Apply(Apply(b, Request(Duplicate, c, amount, target, percentage)),
                  Request(Halve, c, amount, target, percentage)) == b
            <==> b.Get(c).Floor as real == b.Get(c)
  {
    var d := Apply(b, Request(Duplicate, c, amount, target, percentage));
    var h := Apply(d, Request(Halve, c, amount, target, percentage));
    assert d.Get(c) == 2.0 * b.Get(c);
    FloorHalfOfDouble(b.Get(c));
    if b.Get(c).Floor as real == b.Get(c) {
      BalancesExt(h, b);
    } else {
      assert h.Get(c) != b.Get(c);
    }
  }

  /** `reset_all` forgets the previous balances; an unknown kind changes nothing. */
  lemma ResetAndUnknown(b: Balances, q: Request)
    ensures q.kind == ResetAll ==> Apply(b, q) == Initial()
    ensures q.kind.Unknown? ==> Apply(b, q) == b
  {
  }

  /** The requests that keep every balance non-negative: amounts that are
      not negative and percentages within 0..100. */
  predicate KeepsNonNegative(q: Request) {
    match q.kind
    case Add | SetTo | Transfer => q.amount >= 0.0
    case TransferPercentage | DepositToBank => 0.0 <= q.percentage <= 100.0
    case _ => true
  }

  lemma ApplyKeepsNonNegative(b: Balances, q: Request)
    requires b.NonNegative() && KeepsNonNegative(q)
    ensures Apply(b, q).NonNegative()
  {
    var r := Apply(b, q);
    var c := q.counter;
    match q.kind {
      case Halve =>
        FloorHalfNonNegative(b.Get(c));
      case TransferPercentage =>
        ShareBounds(b.Get(c), q.percentage);
      case DepositToBank =>
        ShareBounds(b.Get(c), q.percentage);
      case _ =>
    }
    forall d
      ensures r.Get(d) >= 0.0
    {
      assert b.Get(d) >= 0.0 && b.Get(c) >= 0.0;
    }
  }

  /** A run of requests applied one after another. */
  function ApplyAll(b: Balances, qs: seq<Request>): Balances
    decreases |qs|
  {
    if qs == [] then b else ApplyAll(Apply(b, qs[0]), qs[1..])
  }

  /** No run of well-formed requests drives a balance below zero: the
      subtract clamp and the transfer cap keep the ledger non-negative. */
  lemma {:induction false} ApplyAllKeepsNonNegative(b: Balances, qs: seq<Request>)
    requires b.NonNegative()
    requires forall i :: 0 <= i < |qs| ==> KeepsNonNegative(qs[i])
    ensures ApplyAll(b, qs).NonNegative()
    decreases |qs|
  {
    if qs != [] {
      ApplyKeepsNonNegative(b, qs[0]);
      ApplyAllKeepsNonNegative(Apply(b, qs[0]), qs[1..]);
    }
  }
}

=== FILE: db_locks.dfy ===
/** The lock steps of the database-backed server: explicit per-counter
    locks plus an admin-only global lock that leaves the counter locks
    stored underneath it. The database mirror of each step is not modelled. */
module DbLocks {
  import opened Domain

  /** `lockCounter`. */
  function LockCounter(s: LockState, c: Counter, u: UserId): (r: LockState)
    ensures r.Stored(c) == User(u)
    ensures forall d :: d != c ==> r.Stored(d) == s.Stored(d)
    ensures r.global == s.global
  {
    s.Assign(c, User(u))
  }

  /** `unlockCounter`: the key stays, holding `null`. */
  function UnlockCounter(s: LockState, c: Counter): (r: LockState)
    ensures r.Stored(c) == Null
    ensures forall d :: d != c ==> r.Stored(d) == s.Stored(d)
    ensures r.global == s.global
  {
    s.Assign(c, Null)
  }

  /** `lockGlobal`: takes the global lock whoever held it; counter locks stay. */
  function LockGlobal(s: LockState, u: UserId): (r: LockState)
    ensures r.global.isLocked && r.global.lockedBy == Some(u)
    ensures r.slots == s.slots
  {
    s.(global := GlobalLock(true, Some(u)))
  }

  /** `unlockGlobal`. */
  function UnlockGlobal(s: LockState): (r: LockState)
    ensures !r.global.isLocked && r.global.lockedBy == None
    ensures r.slots == s.slots
  {
    s.(global := Unlocked)
  }

  /** The disconnect loop over `Object.keys(operationLocks)`: every key
      held by `u` becomes `null`. */
  function ReleaseAllFor(slots: map<Counter, Entry>, u: UserId): (r: map<Counter, Entry>)
    ensures r.Keys == slots.Keys
    ensures forall c :: c in slots && slots[c] == User(u) ==> r[c] == Null
    ensures forall c :: c in slots && slots[c] != User(u) ==> r[c] == slots[c]
    ensures forall c :: c in r ==> r[c] != User(u)
  {
    map c | c in slots :: if slots[c] == User(u) then Null else slots[c]
  }

  lemma ReleaseAllForIdempotent(slots: map<Counter, Entry>, u: UserId)
    ensures ReleaseAllFor(ReleaseAllFor(slots, u), u) == ReleaseAllFor(slots, u)
  {
  }
}

=== FILE: db_server.dfy ===
/** The coordinator of the database-backed server: each socket handler is
    one atomic step from a state to a new state and an outcome. The database
    is the authoritative balance store; whether its calls succeed is a
    parameter of the step. */
module DbServer {
  import opened Domain
  import opened Sessions
  import opened LockQueries
  import DbLocks
  import DbLedger

  /** The `counter` field of a start/end request: `'global'` or a counter. */
  datatype Target = Global | Named(c: Counter)

  /** A row of the operations table. */
  datatype Record = Record(userId: UserId, userName: string, kind: DbLedger.OpKind, counter: Counter, amount: real)

  /** Whether each database call of one request succeeds. */
  datatype Store = Store(readOk: bool, writeOk: bool, logOk: bool)

  /** The server's state; `accounts` is the fixed credential table. */
  datatype State = State(accounts: map<UserId, Account>, users: map<SocketId, Session>,
                         locks: LockState, balances: Balances, log: seq<Record>)

  /** A fresh server on a first-run database. */
  function Boot(accounts: map<UserId, Account>): State {
    State(accounts, map[], InitialLocks(), Initial(), [])
  }

  /** `authenticate`, reading only the table's own rows: a good user name
      and password bind the socket, and nothing else about the server
      changes either way. A name the table only inherits (`constructor`,
      `toString`, ...) is refused here; `Sessions.AuthenticateAsWritten`
      is the reading that accepts it. */
  function SignIn(s: State, socket: SocketId, username: UserId, password: Option<string>): (r: (State, Outcome))
    ensures r.1 == Ok <==> username in s.accounts && s.accounts[username].password == password
    ensures r.1 != Ok ==> r == (s, Rejected(BadCredentials))
    ensures r.1 == Ok ==> r.0.users == s.users[socket := Session(username, s.accounts[username].role,
                                                                 s.accounts[username].name, s.accounts[username].counter)]
    ensures r.0.accounts == s.accounts && r.0.locks == s.locks && r.0.balances == s.balances && r.0.log == s.log
  {
    var a := Authenticate(s.users, s.accounts, socket, username, password);
    if a.1 then (s.(users := a.0), Ok) else (s, Rejected(BadCredentials))
  }

  /** `start_operations`: an admin asking for `'global'` takes the global
      lock, a non-admin asking for it is ignored; a counter is locked to the
      caller when `canUserOperate` allows it. */
  function StartOperations(s: State, socket: SocketId, t: Target): (r: (State, Outcome))
    ensures socket !in s.users ==> r == (s, Rejected(NotAuthenticated))
    ensures r.0.accounts == s.accounts && r.0.users == s.users && r.0.balances == s.balances && r.0.log == s.log
    ensures r.1 != Ok ==> r.0 == s
    ensures socket in s.users && t.Global? ==> (r.1 == Ok <==> s.users[socket].role == Admin)
    ensures r.1 == Ok && t.Global? ==>
              r.0.locks.global == GlobalLock(true, Some(s.users[socket].username)) && r.0.locks.slots == s.locks.slots
    ensures socket in s.users && t.Named? ==>
              (r.1 == Ok <==> CanUserOperate(s.locks, Some(t.c), s.users[socket].username, s.users[socket].role))
    ensures r.1 == Ok && t.Named? ==>
              r.0.locks.Stored(t.c) == User(s.users[socket].username) && r.0.locks.global == s.locks.global
              && forall d :: d != t.c ==> r.0.locks.Stored(d) == s.locks.Stored(d)
  {
    if socket !in s.users then (s, Rejected(NotAuthenticated))
    else
      var me := s.users[socket];
      match t
      case Global =>
        if me.role == Admin then (s.(locks := DbLocks.LockGlobal(s.locks, me.username)), Ok)
        else (s, Ignored)
      case Named(c) =>
        if CanUserOperate(s.locks, Some(c), me.username, me.role) then
          (s.(locks := DbLocks.LockCounter(s.locks, c, me.username)), Ok)
        else
          (s, Rejected(NoPermission))
  }

  /** `end_operations`: the global lock is released only by an admin
      holding it; a counter only by its holder or an admin. Any other end
      request is dropped without an answer. */
  function EndOperations(s: State, socket: SocketId, t: Target): (r: (State, Outcome))
    ensures socket !in s.users ==> r == (s, Rejected(NotAuthenticated))
    ensures r.0.accounts == s.accounts && r.0.users == s.users && r.0.balances == s.balances && r.0.log == s.log
    ensures r.1 != Ok ==> r.0 == s
    ensures socket in s.users && t.Global? ==>
              (r.1 == Ok <==> s.users[socket].role == Admin && s.locks.global.lockedBy == Some(s.users[socket].username))
    ensures r.1 == Ok && t.Global? ==> r.0.locks.global == Unlocked && r.0.locks.slots == s.locks.slots
    ensures socket in s.users && t.Named? ==>
              (r.1 == Ok <==> s.locks.Stored(t.c) == User(s.users[socket].username) || s.users[socket].role == Admin)
    ensures r.1 == Ok && t.Named? ==>
              r.0.locks.Stored(t.c) == Null && r.0.locks.global == s.locks.global
              && forall d :: d != t.c ==> r.0.locks.Stored(d) == s.locks.Stored(d)
  {
    if socket !in s.users then (s, Rejected(NotAuthenticated))
    else
      var me := s.users[socket];
      match t
      case Global =>
        if me.role == Admin && s.locks.global.lockedBy == Some(me.username) then
          (s.(locks := DbLocks.UnlockGlobal(s.locks)), Ok)
        else
          (s, Ignored)
      case Named(c) =>
        ReleaseCounter(s, me, c)
  }

  /** The counter branch shared by `end_operations` and `finish_operation`. */
  function ReleaseCounter(s: State, me: Session, c: Counter): (r: (State, Outcome))
    ensures r.1 == Ok <==> s.locks.Stored(c) == User(me.username) || me.role == Admin
    ensures r.1 != Ok ==> r == (s, Ignored)
    ensures r.1 == Ok ==> r.0 == s.(locks := DbLocks.UnlockCounter(s.locks, c))
  {
    if s.locks.Stored(c) == User(me.username) || me.role == Admin then
      (s.(locks := DbLocks.UnlockCounter(s.locks, c)), Ok)
    else
      (s, Ignored)
  }

  /** `finish_operation`: like ending a counter, but an unauthenticated
      socket is ignored rather than answered. */
  function FinishOperation(s: State, socket: SocketId, c: Counter): (r: (State, Outcome))
    ensures socket !in s.users ==> r == (s, Ignored)
    ensures socket in s.users ==> r == EndOperations(s, socket, Named(c))
  {
    if socket !in s.users then (s, Ignored) else ReleaseCounter(s, s.users[socket], c)
  }

  /** `operation`: authenticate, authorise with `canUserOperate`, read the
      balances, apply the switch and write them back. The success message is
      sent before the write completes, so a failed write still answers `Ok`;
      the model then keeps the stored balances as they were. */
  function Operation(s: State, socket: SocketId, q: DbLedger.Request, store: Store): (r: (State, Outcome))
    ensures socket !in s.users ==> r == (s, Rejected(NotAuthenticated))
    ensures (socket in s.users && !CanUserOperate(s.locks, Some(q.counter), s.users[socket].username, s.users[socket].role))
              ==> r == (s, Rejected(NoPermission))
    ensures (socket in s.users && CanUserOperate(s.locks, Some(q.counter), s.users[socket].username, s.users[socket].role)
             && !store.readOk)
              ==> r == (s, Rejected(ReadFailed))
    // an authenticated, permitted request with a good read is answered Ok
    ensures r.1 == Ok <==>
              (socket in s.users && store.readOk
               && CanUserOperate(s.locks, Some(q.counter), s.users[socket].username, s.users[socket].role))
    ensures r.0.accounts == s.accounts && r.0.users == s.users && r.0.locks == s.locks
    ensures r.1 != Ok ==> r.0 == s && r.1.Rejected?
    ensures r.1 == Ok ==> r.0.balances == (if store.writeOk then DbLedger.Apply(s.balances, q) else s.balances)
    // the operations table grows by this request's record exactly when the write and the insert succeed
    ensures socket in s.users && r.1 == Ok && store.writeOk && store.logOk ==>
              r.0.log == s.log + [Record(s.users[socket].username, s.users[socket].name, q.kind, q.counter, q.amount)]
    ensures !(r.1 == Ok && store.writeOk && store.logOk) ==> r.0.log == s.log
  {
    if socket !in s.users then (s, Rejected(NotAuthenticated))
    else
      var me := s.users[socket];
      if !CanUserOperate(s.locks, Some(q.counter), me.username, me.role) then (s, Rejected(NoPermission))
      else if !store.readOk then (s, Rejected(ReadFailed))
      else if !store.writeOk then (s, Ok)
      else
        var written := s.(balances := DbLedger.Apply(s.balances, q));
        if store.logOk then
          (written.(log := s.log + [Record(me.username, me.name, q.kind, q.counter, q.amount)]), Ok)
        else
          (written, Ok)
  }

  /** `disconnect`: every counter held by the leaving user is released,
      the global lock too if they are an admin holding it, and the socket
      is forgotten. An unknown socket changes nothing. */
  function Disconnect(s: State, socket: SocketId): (r: State)
    ensures socket !in r.users
    ensures socket !in s.users ==> r == s
    ensures r.users == Forget(s.users, socket)
    ensures r.accounts == s.accounts && r.balances == s.balances && r.log == s.log
    ensures socket in s.users ==>
              forall c :: r.locks.Stored(c) == (if s.locks.Stored(c) == User(s.users[socket].username) then Null
                                               else s.locks.Stored(c))
    ensures socket in s.users ==>
              r.locks.global == (if s.users[socket].role == Admin && s.locks.global.lockedBy == Some(s.users[socket].username)
                                 then Unlocked else s.locks.global)
  {
    if socket !in s.users then s
    else
      var me := s.users[socket];
      var released := s.locks.(slots := DbLocks.ReleaseAllFor(s.locks.slots, me.username));
      var locks := if me.role == Admin && s.locks.global.lockedBy == Some(me.username)
                   then DbLocks.UnlockGlobal(released) else released;
      s.(users := Forget(s.users, socket), locks := locks)
  }

  /** Leaving twice is leaving once. */
  lemma DisconnectIdempotent(s: State, socket: SocketId)
    ensures Disconnect(Disconnect(s, socket), socket) == Disconnect(s, socket)
  {
  }

  /** After a user leaves, a counter they held is immediately open to
      any other participant, unless another admin's global lock is up. */
  lemma DisconnectFreesCounters(s: State, socket: SocketId, c: Counter, other: UserId, role: Role)
    requires socket in s.users && s.locks.Stored(c) == User(s.users[socket].username)
    requires !Disconnect(s, socket).locks.global.isLocked
    ensures CanUserOperate(Disconnect(s, socket).locks, Some(c), other, role)
  {
  }

  /** Every handler keeps the global flag and its holder in step. */
  lemma HandlersKeepGlobalConsistent(s: State, socket: SocketId, t: Target, c: Counter, q: DbLedger.Request, store: Store)
    requires s.locks.GlobalConsistent()
    ensures StartOperations(s, socket, t).0.locks.GlobalConsistent()
    ensures EndOperations(s, socket, t).0.locks.GlobalConsistent()
    ensures FinishOperation(s, socket, c).0.locks.GlobalConsistent()
    ensures Operation(s, socket, q, store).0.locks.GlobalConsistent()
    ensures Disconnect(s, socket).locks.GlobalConsistent()
  {
  }

  /** One inbound socket event. */
  datatype Event =
    | AuthenticateEv(socket: SocketId, username: UserId, password: Option<string>)
    | StartEv(socket: SocketId, target: Target)
    | EndEv(socket: SocketId, target: Target)
    | FinishEv(socket: SocketId, counter: Counter)
    | OperationEv(socket: SocketId, request: DbLedger.Request, store: Store)
    | DisconnectEv(socket: SocketId)

  function Step(s: State, e: Event): State {
    match e
    case AuthenticateEv(socket, u, p) => SignIn(s, socket, u, p).0
    case StartEv(socket, t) => StartOperations(s, socket, t).0
    case EndEv(socket, t) => EndOperations(s, socket, t).0
    case FinishEv(socket, c) => FinishOperation(s, socket, c).0
    case OperationEv(socket, q, store) => Operation(s, socket, q, store).0
    case DisconnectEv(socket) => Disconnect(s, socket)
  }

  function Run(s: State, es: seq<Event>): State
    decreases |es|
  {
    if es == [] then s else Run(Step(s, es[0]), es[1..])
  }

  /** The session an event arrives on, if its socket is signed in. */
  function Sender(s: State, e: Event): Option<Session> {
    if e.socket in s.users then Some(s.users[e.socket]) else None
  }

  /** Every event of the run arrives on a socket that is not signed in, or
      on a non-admin session named other than `x`. `x` may stay connected
      throughout; only what `x` and the admins send is excluded. */
  predicate FromOthers(s: State, es: seq<Event>, x: UserId)
    decreases |es|
  {
    es == []
    || ((Sender(s, es[0]).None? || (Sender(s, es[0]).value.role != Admin && Sender(s, es[0]).value.username != x))
        && FromOthers(Step(s, es[0]), es[1..], x))
  }

  lemma StepKeepsHold(s: State, e: Event, x: UserId, c: Counter)
    requires s.locks.Stored(c) == User(x) && !s.locks.global.isLocked
    requires Sender(s, e).None? || (Sender(s, e).value.role != Admin && Sender(s, e).value.username != x)
    ensures Step(s, e).locks.Stored(c) == User(x) && !Step(s, e).locks.global.isLocked
  {
    match e {
      case AuthenticateEv(socket, u, p) =>
      case StartEv(socket, t) =>
      case EndEv(socket, t) =>
      case FinishEv(socket, d) =>
        if socket in s.users {
          assert FinishOperation(s, socket, d) == EndOperations(s, socket, Named(d));
        }
      case OperationEv(socket, q, store) =>
      case DisconnectEv(socket) =>
    }
  }

  /** Mutual exclusion over any run: once `x` holds `c` and no global lock
      is up, no run of requests from anyone but `x` and the admins takes
      `c` from `x` or raises a global lock, whether or not `x` is still
      connected. */
  lemma {:induction false} HoldSurvivesOthers(s: State, es: seq<Event>, x: UserId, c: Counter)
    requires s.locks.Stored(c) == User(x) && !s.locks.global.isLocked
    requires FromOthers(s, es, x)
    ensures Run(s, es).locks.Stored(c) == User(x) && !Run(s, es).locks.global.isLocked
    decreases |es|
  {
    if es != [] {
      StepKeepsHold(s, es[0], x, c);
      HoldSurvivesOthers(Step(s, es[0]), es[1..], x, c);
    }
  }

  /** ... and so, at the end of any such run, an operation on `c` passes
      exactly for `x` and the admins: whatever any other session sends
      for `c` is rejected with the ledger untouched. */
  lemma {:induction false} OthersRejectedWhileHeld(s: State, es: seq<Event>, x: UserId, c: Counter,
                                                 socket: SocketId, q: DbLedger.Request, store: Store)
    requires s.locks.Stored(c) == User(x) && !s.locks.global.isLocked
    requires FromOthers(s, es, x)
    requires q.counter == c
    ensures var t := Run(s, es);
            !(socket in t.users && (t.users[socket].username == x || t.users[socket].role == Admin)) ==>
              Operation(t, socket, q, store).1.Rejected? && Operation(t, socket, q, store).0 == t
    ensures var t := Run(s, es);
            socket in t.users && (t.users[socket].username == x || t.users[socket].role == Admin) && store.readOk ==>
              Operation(t, socket, q, store).1 == Ok
  {
    HoldSurvivesOthers(s, es, x, c);
  }

  /** Every event of the run arrives on a socket that is not signed in or
      on a non-admin session; the admin holding the global lock may stay
      connected. */
  predicate FromNonAdmins(s: State, es: seq<Event>)
    decreases |es|
  {
    es == []
    || ((Sender(s, es[0]).None? || Sender(s, es[0]).value.role != Admin) && FromNonAdmins(Step(s, es[0]), es[1..]))
  }

  lemma StepKeepsGlobal(s: State, e: Event, a: UserId)
    requires s.locks.global == GlobalLock(true, Some(a))
    requires Sender(s, e).None? || Sender(s, e).value.role != Admin
    ensures Step(s, e).locks.global == GlobalLock(true, Some(a))
  {
    match e {
      case AuthenticateEv(socket, u, p) =>
      case StartEv(socket, t) =>
      case EndEv(socket, t) =>
      case FinishEv(socket, d) =>
      case OperationEv(socket, q, store) =>
      case DisconnectEv(socket) =>
    }
  }

  /** The global lock supersedes: while admin `a` holds it, no run of
      requests from non-admins lifts it, even with `a` still connected;
      afterwards an operation on any counter passes exactly for a session
      of `a` as an admin. */
  lemma {:induction false} GlobalLockSurvivesOthers(s: State, es: seq<Event>, a: UserId,
                                                  socket: SocketId, q: DbLedger.Request, store: Store)
    requires s.locks.global == GlobalLock(true, Some(a))
    requires FromNonAdmins(s, es)
    ensures Run(s, es).locks.global == GlobalLock(true, Some(a))
    ensures var t := Run(s, es);
            !(socket in t.users && t.users[socket].role == Admin && t.users[socket].username == a) ==>
              Operation(t, socket, q, store).1.Rejected?
    ensures var t := Run(s, es);
            socket in t.users && t.users[socket].role == Admin && t.users[socket].username == a && store.readOk ==>
              Operation(t, socket, q, store).1 == Ok
    decreases |es|
  {
    if es != [] {
      StepKeepsGlobal(s, es[0], a);
      GlobalLockSurvivesOthers(Step(s, es[0]), es[1..], a, socket, q, store);
    }
  }

  /** The runs above include the one they are about: from a first-run
      server, `contador_gallo` signs in and starts on gallo, `contador_leon`
      signs in on another socket, and then gallo's holder is still
      connected while leon's session sends requests. */
  lemma HolderStaysConnected()
    ensures var accounts := map["contador_gallo" := Account(Some("secret-g"), Operator, "Contador Gallo", Some(Gallo)),
                                "contador_leon" := Account(Some("secret-l"), Operator, "Contador León", Some(Leon))];
            var t := Run(Boot(accounts), [AuthenticateEv("g", "contador_gallo", Some("secret-g")),
                                          StartEv("g", Named(Gallo)),
                                          AuthenticateEv("l", "contador_leon", Some("secret-l"))]);
            "g" in t.users && t.users["g"].username == "contador_gallo"
            && "l" in t.users && t.users["l"].username == "contador_leon" && t.users["l"].role == Operator
            && t.locks.Stored(Gallo) == User("contador_gallo") && !t.locks.global.isLocked
            && FromOthers(t, [StartEv("l", Named(Gallo)), OperationEv("l", DbLedger.Request(DbLedger.Add, Gallo, 5.0, Gallo, 0.0), Store(true, true, true))], "contador_gallo")
  {
  }
}

=== FILE: domain.dfy ===
/** Shared vocabulary of the bank-counters game: the six counters, the
    balance record every server keeps, the lock table and the outcome of a
    request. Amounts are exact rationals; JavaScript's `Math.floor` is written
    out with `.Floor`. */
module Domain {

  datatype Option<T> = None | Some(value: T)

  type UserId = string

  /** The fixed set of counters: the central bank and five participants. */
  datatype Counter = Bank | Gallo | Leon | Perro | Mano | Estrella

  /** The five participant counters, in the order the servers list them. */
  const Participants: seq<Counter> := [Gallo, Leon, Perro, Mano, Estrella]

  /** Every participant counter starts (and restarts) with this amount. */
  const StartingAmount: real := 10000.0

  /** The six-slot balance object of the servers. */
  datatype Balances = Balances(bank: real, gallo: real, leon: real, perro: real, mano: real, estrella: real)
  {
    function Get(c: Counter): real {
      match c
      case Bank => bank
      case Gallo => gallo
      case Leon => leon
      case Perro => perro
      case Mano => mano
      case Estrella => estrella
    }

    /** `balances[c] = v`. */
    function Put(c: Counter, v: real): (r: Balances)
      ensures r.Get(c) == v
      ensures forall d :: d != c ==> r.Get(d) == Get(d)
    {
      match c
      case Bank => this.(bank := v)
      case Gallo => this.(gallo := v)
      case Leon => this.(leon := v)
      case Perro => this.(perro := v)
      case Mano => this.(mano := v)
      case Estrella => this.(estrella := v)
    }

    /** `balances[c] += v`. */
    function Shift(c: Counter, v: real): (r: Balances)
      ensures r.Get(c) == Get(c) + v
      ensures forall d :: d != c ==> r.Get(d) == Get(d)
    {
      Put(c, Get(c) + v)
    }

    function Total(): real {
      bank + gallo + leon + perro + mano + estrella
    }

    predicate NonNegative() {
      forall c :: Get(c) >= 0.0
    }
  }

  /** Two balance sets agree on every counter outside `changed`. */
  predicate SameOutside(a: Balances, b: Balances, changed: set<Counter>) {
    forall d :: d !in changed ==> a.Get(d) == b.Get(d)
  }

  /** The balance set written on first run and by every reset. */
  function Initial(): Balances {
    Balances(0.0, StartingAmount, StartingAmount, StartingAmount, StartingAmount, StartingAmount)
  }

  lemma PutTotal(b: Balances, c: Counter, v: real)
    ensures b.Put(c, v).Total() == b.Total() - b.Get(c) + v
  {
  }

  lemma ShiftTotal(b: Balances, c: Counter, v: real)
    ensures b.Shift(c, v).Total() == b.Total() + v
  {
    PutTotal(b, c, b.Get(c) + v);
  }

  /** `balances[from] -= t; balances[to] += t`: money changes hands and
      the total stays. */
  function Move(b: Balances, from: Counter, to: Counter, t: real): (r: Balances)
    ensures r.Total() == b.Total()
    ensures forall d :: d != from && d != to ==> r.Get(d) == b.Get(d)
    ensures from != to ==> r.Get(from) == b.Get(from) - t && r.Get(to) == b.Get(to) + t
    ensures from == to ==> r.Get(from) == b.Get(from)
  {
    ShiftTotal(b, from, -t);
    ShiftTotal(b.Shift(from, -t), to, t);
    b.Shift(from, -t).Shift(to, t)
  }

  /** The `temp` swap of two balances. */
  function Exchange(b: Balances, x: Counter, y: Counter): (r: Balances)
    ensures r.Total() == b.Total()
    ensures forall d :: d != x && d != y ==> r.Get(d) == b.Get(d)
    ensures r.Get(x) == b.Get(y) && r.Get(y) == b.Get(x)
  {
    var first := b.Get(x);
    PutTotal(b, x, b.Get(y));
    PutTotal(b.Put(x, b.Get(y)), y, first);
    b.Put(x, b.Get(y)).Put(y, first)
  }

  lemma BalancesExt(a: Balances, b: Balances)
    requires forall c :: a.Get(c) == b.Get(c)
    ensures a == b
  {
    assert a.Get(Bank) == b.Get(Bank) && a.Get(Gallo) == b.Get(Gallo) && a.Get(Leon) == b.Get(Leon);
    assert a.Get(Perro) == b.Get(Perro) && a.Get(Mano) == b.Get(Mano) && a.Get(Estrella) == b.Get(Estrella);
  }

  /** `Math.max(x, y)` on exact amounts. */
  function Max(x: real, y: real): (r: real)
    ensures r >= x && r >= y && (r == x || r == y)
  {
    if x >= y then x else y
  }

  /** `Math.min(x, y)` on exact amounts. */
  function Min(x: real, y: real): (r: real)
    ensures r <= x && r <= y && (r == x || r == y)
  {
    if x <= y then x else y
  }

  /** `Math.floor(x / 2)`: the integral half of `x`, rounded down. */
  function FloorHalf(x: real): (r: real)
    ensures r.Floor as real == r
    ensures 2.0 * r <= x < 2.0 * r + 2.0
  {
    (x / 2.0).Floor as real
  }

  /** `balance * percentage / 100`, the share the percentage operations move. */
  function Share(balance: real, percentage: real): real {
    (balance * percentage) / 100.0
  }

  /** A percentage within 0..100 of a non-negative balance is a part of it. */
  lemma ShareBounds(balance: real, percentage: real)
    requires balance >= 0.0 && 0.0 <= percentage <= 100.0
    ensures 0.0 <= Share(balance, percentage) <= balance
  {
    assert balance * percentage <= balance * 100.0;
  }

  /** Flooring half of a non-negative amount stays non-negative. */
  lemma FloorHalfNonNegative(x: real)
    requires x >= 0.0
    ensures FloorHalf(x) >= 0.0
  {
    var r := FloorHalf(x);
    assert r.Floor as real == r && r > -1.0;
  }

  /** Halving undoes doubling exactly when the balance is integral. */
  lemma FloorHalfOfDouble(x: real)
    ensures FloorHalf(2.0 * x) == x <==> x.Floor as real == x
  {
    assert (2.0 * x) / 2.0 == x;
  }

  /** One property of a JavaScript lock object: never assigned
      (`undefined`), released (`null`), or held by a user name. */
  datatype Entry = Undefined | Null | User(id: UserId) {
    /** JavaScript truthiness: `undefined`, `null` and `""` are falsy. */
    predicate Truthy() {
      User? && id != ""
    }
  }

  datatype GlobalLock = GlobalLock(isLocked: bool, lockedBy: Option<UserId>)

  const Unlocked: GlobalLock := GlobalLock(false, None)

  /** A counter name as a request carries it; `None` when the request omits
      the field, which JavaScript reads as the key `undefined`. */
  type Key = Option<Counter>

  /** The in-memory lock table: `operationLocks` plus `globalLock`. A
      counter missing from `slots` is a key never assigned. */
  datatype LockState = LockState(slots: map<Counter, Entry>, global: GlobalLock) {
    function Stored(c: Counter): Entry {
      if c in slots then slots[c] else Undefined
    }

    function Lookup(k: Key): Entry {
      match k
      case None => Undefined
      case Some(c) => Stored(c)
    }

    /** `operationLocks[c] = e`. */
    function Assign(c: Counter, e: Entry): (r: LockState)
      ensures r.Stored(c) == e
      ensures forall d :: d != c ==> r.Stored(d) == Stored(d)
      ensures r.global == global
    {
      this.(slots := slots[c := e])
    }

    /** The flag and the holder of the global lock move together. */
    predicate GlobalConsistent() {
      global.isLocked <==> global.lockedBy.Some?
    }
  }

  /** The table both servers start with: the five participants released,
      the bank never assigned, no global lock. */
  function InitialLocks(): LockState {
    LockState(map[Gallo := Null, Leon := Null, Perro := Null, Mano := Null, Estrella := Null], Unlocked)
  }

  /** The holder a message names: a held global lock's owner, or `null`. */
  function HolderEntry(o: Option<UserId>): Entry {
    match o
    case None => Null
    case Some(u) => User(u)
  }

  datatype Reason =
    | NotAuthenticated
    | BadCredentials
    | NoPermission
    | LockError(holder: Entry)
    | NoGlobalOperations
    | ReadFailed
    | WriteFailed

  /** `Ignored` is a request the server drops without answering. */
  datatype Outcome = Ok | Ignored | Rejected(reason: Reason)
}

=== FILE: lock_queries.dfy ===
/** The read-only lock queries. Both lock-holding servers carry the same
    four functions word for word, so they are defined once here; what each
    server DOES with the table lives in its own module. */
module LockQueries {
  import opened Domain
  import opened Sessions

  /** `isCounterLocked`: a held global lock locks every counter; otherwise
      anything but `null` counts as locked, a never-assigned key included. */
  function IsCounterLocked(s: LockState, k: Key): (r: bool)
    ensures s.global.isLocked ==> r
    ensures !r <==> !s.global.isLocked && s.Lookup(k) == Null
  {
    if s.global.isLocked then true else s.Lookup(k) != Null
  }

  /** `getLockedBy`: the global holder overrides the stored holder. */
  function GetLockedBy(s: LockState, k: Key): (r: Entry)
    ensures s.global.isLocked ==> r == HolderEntry(s.global.lockedBy)
    ensures !s.global.isLocked ==> r == s.Lookup(k)
  {
    if s.global.isLocked then HolderEntry(s.global.lockedBy) else s.Lookup(k)
  }

  /** `canUserOperate`: under a global lock only the admin holding it may
      operate; otherwise a released counter, its own holder or any admin. */
  function CanUserOperate(s: LockState, k: Key, u: UserId, role: Role): (r: bool)
    // a global lock supersedes every counter lock
    ensures s.global.isLocked ==> (r <==> role == Admin && s.global.lockedBy == Some(u))
    // mutual exclusion: a counter held by someone else refuses non-admins
    ensures s.Lookup(k).User? && s.Lookup(k).id != u && role != Admin ==> !r
    // without a global lock, free counters, own counters and admins pass
    ensures !s.global.isLocked && (s.Lookup(k) == Null || s.Lookup(k) == User(u) || role == Admin) ==> r
    // a never-assigned key is closed to non-admins
    ensures s.Lookup(k) == Undefined && role != Admin ==> !r
  {
    if s.global.isLocked then
      role == Admin && s.global.lockedBy == Some(u)
    else
      var held := s.Lookup(k);
      held == Null || held == User(u) || role == Admin
  }

  /** `canUserTransferToBank`: always allowed without a global lock. */
  function CanUserTransferToBank(s: LockState, u: UserId, role: Role): (r: bool)
    ensures !s.global.isLocked ==> r
    ensures s.global.isLocked ==> (r <==> CanUserOperate(s, Some(Bank), u, role))
  {
    if s.global.isLocked then role == Admin && s.global.lockedBy == Some(u) else true
  }

  /** The three queries agree: without a global lock a non-admin may
      operate exactly what is free or what `getLockedBy` attributes to
      them; under one, exactly the admin `getLockedBy` names may. */
  lemma QueriesAgree(s: LockState, k: Key, u: UserId, role: Role)
    ensures !s.global.isLocked && role != Admin ==>
              (CanUserOperate(s, k, u, role) <==> !IsCounterLocked(s, k) || GetLockedBy(s, k) == User(u))
    ensures s.global.isLocked ==>
              (CanUserOperate(s, k, u, role) <==> role == Admin && GetLockedBy(s, k) == User(u))
  {
  }

  /** On the boot table every participant counter is open to everyone,
      while the bank, never assigned, is open to admins only. */
  lemma InitialTableClosesBank(c: Counter, u: UserId, role: Role)
    ensures CanUserOperate(InitialLocks(), Some(c), u, role) <==> c != Bank || role == Admin
    ensures !IsCounterLocked(InitialLocks(), Some(c)) <==> c != Bank
  {
  }
}

=== FILE: sessions.dfy ===
/** The session registry of the authenticating servers: a table from
    connection to the participant it authenticated as. */
module Sessions {
  import opened Domain

  type SocketId = string

  /** The servers only ever compare `role === 'admin'`, so every other role is an operator. */
  datatype Role = Admin | Operator

  datatype Session = Session(username: UserId, role: Role, name: string, counter: Option<Counter>)

  /** One row of the fixed credential table. A `password` of `None` is a
      property that is not there, which JavaScript reads as `undefined`. */
  datatype Account = Account(password: Option<string>, role: Role, name: string, counter: Option<Counter>)

  /** The methods every object literal inherits from `Object.prototype`:
      `users[name]` finds them although the credential table never lists
      them. Each is a function, so it is truthy and has a `name`, but no
      `password`, `role` or `counter`. */
  const PrototypeMethods: set<UserId> :=
    {"constructor", "hasOwnProperty", "isPrototypeOf", "propertyIsEnumerable", "toString",
     "valueOf", "toLocaleString", "__defineGetter__", "__defineSetter__",
     "__lookupGetter__", "__lookupSetter__"}

  /** The `name` of an inherited method: `constructor` is `Object`, the
      others are named after themselves. */
  function MethodName(k: UserId): string {
    if k == "constructor" then "Object" else k
  }

  /** The credential check shared by both readings of the table: the row
      found, if any, must carry exactly the password the message carries. */
  function Bind(users: map<SocketId, Session>, found: Option<Account>,
                socket: SocketId, username: UserId, password: Option<string>): (r: (map<SocketId, Session>, bool))
    ensures r.1 <==> found.Some? && found.value.password == password
    ensures r.1 ==> r.0 == users[socket := Session(username, found.value.role, found.value.name, found.value.counter)]
    ensures !r.1 ==> r.0 == users
  {
    if found.Some? && found.value.password == password then
      (users[socket := Session(username, found.value.role, found.value.name, found.value.counter)], true)
    else
      (users, false)
  }

  /** `users[username]` as the servers evaluate it: an own row of the
      table, else an inherited method, else `undefined`. */
  function LookupAsWritten(table: map<UserId, Account>, username: UserId): (r: Option<Account>)
    ensures username in table ==> r == Some(table[username])
    ensures username !in table && username in PrototypeMethods ==>
              r == Some(Account(None, Operator, MethodName(username), None))
    ensures username !in table && username !in PrototypeMethods ==> r.None?
  {
    if username in table then Some(table[username])
    else if username in PrototypeMethods then Some(Account(None, Operator, MethodName(username), None))
    else None
  }

  /** The `authenticate` handler as the servers run it: the inherited
      methods count as rows without a password. */
  function AuthenticateAsWritten(users: map<SocketId, Session>, table: map<UserId, Account>,
                                 socket: SocketId, username: UserId, password: Option<string>): (r: (map<SocketId, Session>, bool))
    ensures r.1 <==> LookupAsWritten(table, username).Some? && LookupAsWritten(table, username).value.password == password
    ensures username !in table && username in PrototypeMethods && password.None? ==>
              r.1 && r.0 == users[socket := Session(username, Operator, MethodName(username), None)]
    ensures !r.1 ==> r.0 == users
  {
    Bind(users, LookupAsWritten(table, username), socket, username, password)
  }

  /** A message naming `constructor` and carrying no password signs in as
      an operator called `Object` with no counter, whatever the table is,
      as long as the table has no such row; the own-key reading refuses it. */
  lemma PrototypeNameSignsIn(users: map<SocketId, Session>, table: map<UserId, Account>, socket: SocketId)
    requires "constructor" !in table
    ensures AuthenticateAsWritten(users, table, socket, "constructor", None).1
    ensures AuthenticateAsWritten(users, table, socket, "constructor", None).0[socket]
            == Session("constructor", Operator, "Object", None)
    ensures !Authenticate(users, table, socket, "constructor", None).1
  {
  }

  /** The `authenticate` handler reading only the table's own rows: a
      matching user name and password bind the socket to that account;
      anything else leaves the registry alone. The credential table is a
      parameter. */
  function Authenticate(users: map<SocketId, Session>, table: map<UserId, Account>,
                        socket: SocketId, username: UserId, password: Option<string>): (r: (map<SocketId, Session>, bool))
    ensures r.1 <==> username in table && table[username].password == password
    ensures r.1 ==> socket in r.0 && r.0[socket].username == username
                    && r.0[socket].role == table[username].role
                    && r.0[socket].name == table[username].name
                    && r.0[socket].counter == table[username].counter
    ensures !r.1 ==> r.0 == users
    ensures forall other :: other != socket ==> (other in r.0 <==> other in users)
    ensures forall other :: other != socket && other in users ==> r.0[other] == users[other]
  {
    Bind(users, if username in table then Some(table[username]) else None, socket, username, password)
  }

  /** When every row of the table has a password, a message without one
      never signs in. */
  lemma NoPasswordNoSession(users: map<SocketId, Session>, table: map<UserId, Account>,
                            socket: SocketId, username: UserId)
    requires forall u :: u in table ==> table[u].password.Some?
    ensures !Authenticate(users, table, socket, username, None).1
    ensures Authenticate(users, table, socket, username, None).0 == users
  {
  }

  /** `connectedUsers.delete(socket.id)`. */
  function Forget(users: map<SocketId, Session>, socket: SocketId): (r: map<SocketId, Session>)
    ensures socket !in r
    ensures forall other :: other != socket ==> (other in r <==> other in users)
    ensures forall other :: other in r ==> r[other] == users[other]
  {
    users - {socket}
  }

  /** Signing in on a new connection and then leaving restores the
      registry exactly. */
  lemma AuthenticateThenForget(users: map<SocketId, Session>, table: map<UserId, Account>,
                               socket: SocketId, username: UserId, password: Option<string>)
    requires socket !in users
    ensures Forget(Authenticate(users, table, socket, username, password).0, socket) == users
  {
    var r := Forget(Authenticate(users, table, socket, username, password).0, socket);
    assert r.Keys == users.Keys;
  }
}

=== FILE: simple_server.dfy ===
/** The lock-free server: authentication is the only gate in front of its
    `operation` handler, whose `switch` has the richest set of balance
    transformations. The database is the balance store; whether the read,
    the row writes and the log insert succeed is a parameter. */
module SimpleServer {
  import opened Domain
  import opened Sessions

  datatype OpKind =
    | Add | Subtract | SetTo
    | AddPercentage | SubtractPercentage
    | Transfer | TransferToBank
    | Duplicate | Halve
    | SetSpecificAmounts | SetBankAmount | DivideBank
    | ResetAll
    | Unknown(name: string)

  /** The fields of an `operation` message the switch reads; `amounts` is
      the partial balance object of `set_specific_amounts`. */
  datatype Request = Request(kind: OpKind, counter: Counter, amount: real, target: Counter,
                             percentage: real, amounts: map<Counter, real>)

  /** The number of participant counters the bank is divided among. */
  const Shares: real := 5.0

  /** The counters a request of this kind may write. */
  function Touched(q: Request): set<Counter> {
    match q.kind
    case Add | Subtract | SetTo | AddPercentage | SubtractPercentage | Duplicate | Halve => {q.counter}
    case Transfer => {q.counter, q.target}
    case TransferToBank => {q.counter, Bank}
    case SetSpecificAmounts => q.amounts.Keys
    case SetBankAmount => {Bank}
    case DivideBank | ResetAll => {Bank, Gallo, Leon, Perro, Mano, Estrella}
    case Unknown(_) => {}
  }

  /** The kinds that only move money between counters. */
  predicate Moves(k: OpKind) {
    k.Transfer? || k.TransferToBank? || k.DivideBank?
  }

  /** `{ ...b, ...amounts }` on the six slots. */
  function Overwrite(b: Balances, amounts: map<Counter, real>): (r: Balances)
    ensures forall c :: r.Get(c) == (if c in amounts then amounts[c] else b.Get(c))
  {
    Balances(
      if Bank in amounts then amounts[Bank] else b.bank,
      if Gallo in amounts then amounts[Gallo] else b.gallo,
      if Leon in amounts then amounts[Leon] else b.leon,
      if Perro in amounts then amounts[Perro] else b.perro,
      if Mano in amounts then amounts[Mano] else b.mano,
      if Estrella in amounts then amounts[Estrella] else b.estrella)
  }

  /** `divide_bank`: the bank pays `amount`, each participant gets a fifth. */
  function DivideBankAmount(b: Balances, amount: real): (r: Balances)
    ensures r.Total() == b.Total()
    ensures r.Get(Bank) == b.Get(Bank) - amount
    ensures forall c :: c != Bank ==> r.Get(c) == b.Get(c) + amount / Shares
  {
    var per := amount / Shares;
    Balances(b.bank - amount, b.gallo + per, b.leon + per, b.perro + per, b.mano + per, b.estrella + per)
  }

  function Apply(b: Balances, q: Request): (r: Balances)
    ensures SameOutside(r, b, Touched(q))
    ensures Moves(q.kind) ==> r.Total() == b.Total()
    ensures q.kind == Subtract || q.kind == SubtractPercentage ==> r.Get(q.counter) >= 0.0
    // divide_bank pays out of the bank to the five participants; add_percentage adds the share, whatever its sign
    ensures q.kind == DivideBank ==> r == DivideBankAmount(b, q.amount)
    ensures q.kind == AddPercentage ==> r.Get(q.counter) == b.Get(q.counter) + Share(b.Get(q.counter), q.percentage)
    // add, set and duplicate leave exactly the new value
    ensures q.kind == Add ==> r.Get(q.counter) == b.Get(q.counter) + q.amount
    ensures q.kind == SetTo ==> r.Get(q.counter) == q.amount
    ensures q.kind == Duplicate ==> r.Get(q.counter) == 2.0 * b.Get(q.counter)
    // both subtractions take off what the balance covers, and otherwise stop at zero
    ensures q.kind == Subtract && q.amount <= b.Get(q.counter) ==> r.Get(q.counter) == b.Get(q.counter) - q.amount
    ensures q.kind == Subtract && q.amount > b.Get(q.counter) ==> r.Get(q.counter) == 0.0
    ensures q.kind == SubtractPercentage && Share(b.Get(q.counter), q.percentage) <= b.Get(q.counter) ==>
              r.Get(q.counter) == b.Get(q.counter) - Share(b.Get(q.counter), q.percentage)
    ensures q.kind == SubtractPercentage && Share(b.Get(q.counter), q.percentage) > b.Get(q.counter) ==>
              r.Get(q.counter) == 0.0
  {
    var c := q.counter;
    match q.kind
    case Add => b.Shift(c, q.amount)
    case Subtract => b.Put(c, Max(0.0, b.Get(c) - q.amount))
    case SetTo => b.Put(c, q.amount)
    case AddPercentage => b.Shift(c, Share(b.Get(c), q.percentage))
    case SubtractPercentage => b.Put(c, Max(0.0, b.Get(c) - Share(b.Get(c), q.percentage)))
    case Transfer => Move(b, c, q.target, Share(b.Get(c), q.percentage))
    case TransferToBank => Move(b, c, Bank, Share(b.Get(c), q.percentage))
    case Duplicate => b.Put(c, b.Get(c) * 2.0)
    case Halve => b.Put(c, FloorHalf(b.Get(c)))
    case SetSpecificAmounts => Overwrite(b, q.amounts)
    case SetBankAmount => b.Put(Bank, q.amount)
    case DivideBank => DivideBankAmount(b, q.amount)
    case ResetAll => Initial()
    case Unknown(_) => b
  }

  /** `add_percentage` with a non-negative percentage never lowers a
      non-negative balance: it adds `b * p / 100`. */
  lemma AddPercentageGrows(b: Balances, q: Request)
    requires q.kind == AddPercentage && b.Get(q.counter) >= 0.0 && q.percentage >= 0.0
    ensures Apply(b, q).Get(q.counter) == b.Get(q.counter) + Share(b.Get(q.counter), q.percentage)
    ensures Apply(b, q).Get(q.counter) >= b.Get(q.counter)
  {
    assert b.Get(q.counter) * q.percentage >= 0.0;
  }

  /** `transfer` and `transfer_to_bank` move exactly the share; with a
      percentage of at most 100 the source cannot go below zero. */
  lemma TransferMovesShare(b: Balances, q: Request, to: Counter)
    requires (q.kind == Transfer && to == q.target) || (q.kind == TransferToBank && to == Bank)
    requires q.counter != to
    ensures Apply(b, q).Get(q.counter) == b.Get(q.counter) - Share(b.Get(q.counter), q.percentage)
    ensures Apply(b, q).Get(to) == b.Get(to) + Share(b.Get(q.counter), q.percentage)
    ensures b.Get(q.counter) >= 0.0 && 0.0 <= q.percentage <= 100.0 ==> Apply(b, q).Get(q.counter) >= 0.0
  {
    var x := b.Get(q.counter);
    if x >= 0.0 && 0.0 <= q.percentage <= 100.0 {
      ShareBounds(x, q.percentage);
    }
  }

  /** `set_specific_amounts` writes exactly the supplied counters;
      `set_bank_amount` writes only the bank. */
  lemma SetKindsWriteOnlyTheirCounters(b: Balances, q: Request)
    ensures q.kind == SetSpecificAmounts ==>
              forall c :: Apply(b, q).Get(c) == (if c in q.amounts then q.amounts[c] else b.Get(c))
    ensures q.kind == SetBankAmount ==>
              Apply(b, q).Get(Bank) == q.amount && forall c :: c != Bank ==> Apply(b, q).Get(c) == b.Get(c)
  {
  }

  /** `halve` floors, `reset_all` forgets the previous balances, an unknown
      kind changes nothing. */
  lemma HalveResetUnknown(b: Balances, q: Request)
    ensures q.kind == Halve ==>
              Apply(b, q).Get(q.counter) == FloorHalf(b.Get(q.counter))
              && 2.0 * Apply(b, q).Get(q.counter) <= b.Get(q.counter) < 2.0 * Apply(b, q).Get(q.counter) + 2.0
    ensures q.kind == ResetAll ==> Apply(b, q) == Initial()
    ensures q.kind.Unknown? ==> Apply(b, q) == b
  {
  }

  /** A row of the operations table. */
  datatype Record = Record(userId: UserId, userName: string, kind: OpKind, counter: Counter, amount: real)

  datatype Store = Store(readOk: bool, writeOk: bool, logOk: bool)

  datatype State = State(users: map<SocketId, Session>, balances: Balances, log: seq<Record>)

  function Boot(): State {
    State(map[], Initial(), [])
  }

  /** `operation`: any authenticated socket may apply any request to any
      counter; there is no lock check. A failed write is reported to the
      requester and, in this model, leaves the stored balances whole. */
  function Operation(s: State, socket: SocketId, q: Request, store: Store): (r: (State, Outcome))
    ensures socket !in s.users ==> r == (s, Rejected(NotAuthenticated))
    ensures r.0.users == s.users
    ensures r.1 != Ok ==> r.0 == s && r.1.Rejected?
    ensures r.1 == Ok <==> socket in s.users && store.readOk && store.writeOk
    ensures r.1 == Ok ==> r.0.balances == Apply(s.balances, q)
    // the operations table grows by this request's record exactly when the insert succeeds too
    ensures socket in s.users && r.1 == Ok && store.logOk ==>
              r.0.log == s.log + [Record(s.users[socket].username, s.users[socket].name, q.kind, q.counter, q.amount)]
    ensures !(r.1 == Ok && store.logOk) ==> r.0.log == s.log
  {
    if socket !in s.users then (s, Rejected(NotAuthenticated))
    else if !store.readOk then (s, Rejected(ReadFailed))
    else if !store.writeOk then (s, Rejected(WriteFailed))
    else
      var me := s.users[socket];
      var written := s.(balances := Apply(s.balances, q));
      if store.logOk then
        (written.(log := s.log + [Record(me.username, me.name, q.kind, q.counter, q.amount)]), Ok)
      else
        (written, Ok)
  }

  /** `disconnect` only forgets the socket. */
  function Disconnect(s: State, socket: SocketId): (r: State)
    ensures r == s.(users := Forget(s.users, socket))
  {
    s.(users := Forget(s.users, socket))
  }

  /** Once a socket has left, whatever it sends is refused and changes
      nothing, while every other session keeps its standing. */
  lemma DisconnectRevokes(s: State, socket: SocketId, other: SocketId, q: Request, store: Store)
    requires other != socket
    ensures Operation(Disconnect(s, socket), socket, q, store) == (Disconnect(s, socket), Rejected(NotAuthenticated))
    ensures Operation(Disconnect(s, socket), other, q, store).1 == Operation(s, other, q, store).1
  {
  }

  datatype Event =
    | OperationEv(socket: SocketId, request: Request, store: Store)
    | DisconnectEv(socket: SocketId)

  function Step(s: State, e: Event): State {
    match e
    case OperationEv(socket, q, store) => Operation(s, socket, q, store).0
    case DisconnectEv(socket) => Disconnect(s, socket)
  }

  function Run(s: State, es: seq<Event>): State
    decreases |es|
  {
    if es == [] then s else Run(Step(s, es[0]), es[1..])
  }

  /** Every operation of the run only moves money between counters. */
  predicate OnlyMoves(es: seq<Event>) {
    forall i :: 0 <= i < |es| && es[i].OperationEv? ==> Moves(es[i].request.kind)
  }

  /** With no lock in front of it, the server still keeps the money supply:
      any run of transfers, bank transfers and bank divisions, from any
      mix of sockets and with any database outcome, leaves the total of
      the six balances where it was. */
  lemma {:induction false} MovesConserveTotal(s: State, es: seq<Event>)
    requires OnlyMoves(es)
    ensures Run(s, es).balances.Total() == s.balances.Total()
    decreases |es|
  {
    if es != [] {
      assert OnlyMoves(es[1..]) by {
        forall i | 0 <= i < |es[1..]| && es[1..][i].OperationEv?
          ensures Moves(es[1..][i].request.kind)
        {
          assert es[1..][i] == es[i + 1];
        }
      }
      MovesConserveTotal(Step(s, es[0]), es[1..]);
    }
  }
}

=== FILE: variant_locks.dfy ===
/** The lock steps of the in-memory server variant. Here the global lock
    wipes every counter lock when it starts, the bank is lent to whichever
    operator starts first, and a transfer's destination is locked to the
    sender on the fly. */
module VariantLocks {
  import opened Domain

  /** `startGlobalLock`: record the holder and release every assigned
      counter; keys never assigned stay unassigned. */
  function StartGlobalLock(s: LockState, u: UserId): (r: LockState)
    ensures r.global == GlobalLock(true, Some(u))
    ensures r.slots.Keys == s.slots.Keys
    ensures forall c :: c in s.slots ==> r.Stored(c) == Null
    ensures forall c :: c !in s.slots ==> r.Stored(c) == Undefined
  {
    LockState(map c | c in s.slots :: Null, GlobalLock(true, Some(u)))
  }

  /** `endGlobalLock`: only the current holder lifts the global lock;
      counter locks are not touched either way. */
  function EndGlobalLock(s: LockState, u: UserId): (r: LockState)
    ensures r.slots == s.slots
    ensures s.global.lockedBy == Some(u) ==> r.global == Unlocked
    ensures s.global.lockedBy != Some(u) ==> r == s
  {
    if s.global.lockedBy == Some(u) then s.(global := Unlocked) else s
  }

  /** A global session leaves no counter lock behind: starting and then
      ending it frees every assigned counter. */
  lemma GlobalSessionRoundTrip(s: LockState, u: UserId)
    ensures EndGlobalLock(StartGlobalLock(s, u), u).global == Unlocked
    ensures forall c :: c in s.slots ==> EndGlobalLock(StartGlobalLock(s, u), u).Stored(c) == Null
    ensures forall c :: c !in s.slots ==> EndGlobalLock(StartGlobalLock(s, u), u).Stored(c) == Undefined
  {
  }

  /** The on-the-fly lock of a transfer or deposit destination: taken when
      the slot is falsy or already the sender's, left alone otherwise. */
  function AutoLock(s: LockState, c: Counter, u: UserId): (r: LockState)
    ensures r.global == s.global
    ensures forall d :: d != c ==> r.Stored(d) == s.Stored(d)
    ensures s.Stored(c).Truthy() && s.Stored(c) != User(u) ==> r == s
    ensures !s.Stored(c).Truthy() || s.Stored(c) == User(u) ==> r.Stored(c) == User(u)
  {
    if !s.Stored(c).Truthy() || s.Stored(c) == User(u) then s.Assign(c, User(u)) else s
  }

  /** The bank follows the operator: on a successful counter start the bank
      is lent to the caller when no global lock is up and the bank is falsy. */
  function LendBank(s: LockState, u: UserId): (r: LockState)
    ensures r.global == s.global
    ensures forall d :: d != Bank ==> r.Stored(d) == s.Stored(d)
    ensures !s.global.isLocked && !s.Stored(Bank).Truthy() ==> r.Stored(Bank) == User(u)
    ensures s.global.isLocked || s.Stored(Bank).Truthy() ==> r == s
  {
    if !s.global.isLocked && !s.Stored(Bank).Truthy() then s.Assign(Bank, User(u)) else s
  }

  /** On a successful counter end the caller's hold on the bank goes too. */
  function ReturnBank(s: LockState, u: UserId): (r: LockState)
    ensures r.global == s.global
    ensures forall d :: d != Bank ==> r.Stored(d) == s.Stored(d)
    ensures s.Stored(Bank) == User(u) ==> r.Stored(Bank) == Null
    ensures s.Stored(Bank) != User(u) ==> r == s
  {
    if s.Stored(Bank) == User(u) then s.Assign(Bank, Null) else s
  }
}

=== FILE: variant_server.dfy ===
/** The in-memory server variant. It keeps the balances itself and does
    not authenticate: a socket that never logged in acts as the operator
    `Usuario desconocido`. Its `update_balance` handler authorises through
    the lock table and then runs a short `if` chain over the balances. */
module VariantServer {
  import opened Domain
  import opened Sessions
  import opened LockQueries
  import opened VariantLocks

  datatype UpdateKind = Add | Subtract | SetTo | Transfer | Swap | Reset | Deposit | Other(name: string)

  /** The fields of an `update_balance` message. `counter` and `target` may
      be missing; `from` and `to` are read by transfer and swap only. */
  datatype UpdateRequest = UpdateRequest(kind: UpdateKind, counter: Key, amount: real, target: Key, from: Counter, to: Counter)

  datatype State = State(users: map<SocketId, Session>, locks: LockState, balances: Balances)

  /** The name given to a socket that never sent `user_login`. */
  const Anonymous: UserId := "Usuario desconocido"

  function Boot(): State {
    State(map[], InitialLocks(), Initial())
  }

  /** The caller's name and role as the handlers derive them. */
  function ActorName(s: State, socket: SocketId): UserId {
    if socket in s.users then s.users[socket].username else Anonymous
  }

  function ActorRole(s: State, socket: SocketId): Role {
    if socket in s.users then s.users[socket].role else Operator
  }

  /** `user_login`: the client's own description of itself is stored as is. */
  function Login(s: State, socket: SocketId, data: Session): (r: State)
    ensures r.users == s.users[socket := data] && r.locks == s.locks && r.balances == s.balances
  {
    s.(users := s.users[socket := data])
  }

  /** After `user_login` the socket acts under the name and role it
      claimed; every other socket is unaffected. */
  lemma LoginNamesTheActor(s: State, socket: SocketId, data: Session, other: SocketId)
    requires other != socket
    ensures ActorName(Login(s, socket, data), socket) == data.username
    ensures ActorRole(Login(s, socket, data), socket) == data.role
    ensures ActorName(Login(s, socket, data), other) == ActorName(s, other)
    ensures ActorRole(Login(s, socket, data), other) == ActorRole(s, other)
  {
  }

  /** Nothing checks the description a client logs in with: any socket
      that claims the admin role takes the global lock whenever no one
      holds it. */
  lemma LoginClaimsAdmin(s: State, socket: SocketId, data: Session, counter: Key)
    requires data.role == Admin && !s.locks.global.isLocked
    ensures StartOperations(Login(s, socket, data), socket, counter).1 == Ok
    ensures StartOperations(Login(s, socket, data), socket, counter).0.locks.global
            == GlobalLock(true, Some(data.username))
  {
    var t := Login(s, socket, data);
    assert ActorRole(t, socket) == Admin && ActorName(t, socket) == data.username;
  }

  /** `start_operations`. An admin starts (or restarts) the global lock
      unless another user holds it. An operator locks the counter when
      `canUserOperate` allows it, and also borrows the bank. */
  function StartOperations(s: State, socket: SocketId, counter: Key): (r: (State, Outcome))
    ensures r.0.users == s.users && r.0.balances == s.balances
    ensures r.1 != Ok ==> r.0 == s
    // an admin is refused exactly while another user holds the global lock
    ensures ActorRole(s, socket) == Admin ==>
              (r.1 == Ok <==> !(s.locks.global.isLocked && s.locks.global.lockedBy != Some(ActorName(s, socket))))
    ensures ActorRole(s, socket) == Admin && r.1 == Ok ==>
              r.0.locks == StartGlobalLock(s.locks, ActorName(s, socket))
    // an operator succeeds exactly when canUserOperate allows the counter
    ensures ActorRole(s, socket) != Admin ==>
              (r.1 == Ok <==> CanUserOperate(s.locks, counter, ActorName(s, socket), Operator))
    ensures ActorRole(s, socket) != Admin && r.1 == Ok ==>
              counter.Some? && r.0.locks.Stored(counter.value) == User(ActorName(s, socket))
              && r.0.locks.global == s.locks.global
              && (forall d :: d != counter.value && d != Bank ==> r.0.locks.Stored(d) == s.locks.Stored(d))
    // the bank follows the operator when it was free and no global lock is up
    ensures (ActorRole(s, socket) != Admin && r.1 == Ok && !s.locks.global.isLocked
             && (counter == Some(Bank) || !s.locks.Stored(Bank).Truthy()))
              ==> r.0.locks.Stored(Bank) == User(ActorName(s, socket))
    ensures (ActorRole(s, socket) != Admin && r.1 == Ok && counter != Some(Bank) && s.locks.Stored(Bank).Truthy())
              ==> r.0.locks.Stored(Bank) == s.locks.Stored(Bank)
  {
    var u := ActorName(s, socket);
    var role := ActorRole(s, socket);
    if role == Admin then
      if s.locks.global.isLocked && s.locks.global.lockedBy != Some(u) then
        (s, Rejected(LockError(HolderEntry(s.locks.global.lockedBy))))
      else
        (s.(locks := StartGlobalLock(s.locks, u)), Ok)
    else if !CanUserOperate(s.locks, counter, u, role) then
      (s, Rejected(LockError(GetLockedBy(s.locks, counter))))
    else
      var held := s.locks.Assign(counter.value, User(u));
      (s.(locks := LendBank(held, u)), Ok)
  }

  /** `end_operations`. An admin ends the global lock only when holding it.
      An operator ends a counter only when `getLockedBy` names them; the
      counter is released and so is the bank if they hold it. */
  function EndOperations(s: State, socket: SocketId, counter: Key): (r: (State, Outcome))
    ensures r.0.users == s.users && r.0.balances == s.balances
    ensures r.1 != Ok ==> r.0 == s
    ensures ActorRole(s, socket) == Admin ==>
              (r.1 == Ok <==> s.locks.global.isLocked && s.locks.global.lockedBy == Some(ActorName(s, socket)))
    ensures ActorRole(s, socket) == Admin && r.1 == Ok ==>
              r.0.locks.global == Unlocked && r.0.locks.slots == s.locks.slots
    ensures ActorRole(s, socket) != Admin ==>
              (r.1 == Ok <==> GetLockedBy(s.locks, counter) == User(ActorName(s, socket)))
    ensures ActorRole(s, socket) != Admin && r.1 == Ok ==>
              r.0.locks.global == s.locks.global
              && (counter.Some? ==> r.0.locks.Stored(counter.value) == Null)
              && (s.locks.Stored(Bank) == User(ActorName(s, socket)) ==> r.0.locks.Stored(Bank) == Null)
              // only the caller's own hold on the bank is given back
              && (counter != Some(Bank) && s.locks.Stored(Bank) != User(ActorName(s, socket))
                  ==> r.0.locks.Stored(Bank) == s.locks.Stored(Bank))
              && (forall d :: Some(d) != counter && d != Bank ==> r.0.locks.Stored(d) == s.locks.Stored(d))
  {
    var u := ActorName(s, socket);
    var role := ActorRole(s, socket);
    if role == Admin then
      if !s.locks.global.isLocked || s.locks.global.lockedBy != Some(u) then
        (s, Rejected(NoGlobalOperations))
      else
        (s.(locks := EndGlobalLock(s.locks, u)), Ok)
    else if GetLockedBy(s.locks, counter) != User(u) then
      (s, Rejected(NoPermission))
    else
      // a missing counter releases the key `undefined`, none of the six
      var released := if counter.Some? then s.locks.Assign(counter.value, Null) else s.locks;
      (s.(locks := ReturnBank(released, u)), Ok)
  }

  /** An operator's session round trip: starting and then ending a free
      counter leaves it and the bank released. */
  lemma OperatorSessionRoundTrip(s: State, socket: SocketId, c: Counter)
    requires ActorRole(s, socket) != Admin && ActorName(s, socket) != ""
    requires !s.locks.global.isLocked && s.locks.Stored(c) == Null && !s.locks.Stored(Bank).Truthy()
    ensures StartOperations(s, socket, Some(c)).1 == Ok
    ensures EndOperations(StartOperations(s, socket, Some(c)).0, socket, Some(c)).1 == Ok
    ensures EndOperations(StartOperations(s, socket, Some(c)).0, socket, Some(c)).0.locks.Stored(c) == Null
    ensures EndOperations(StartOperations(s, socket, Some(c)).0, socket, Some(c)).0.locks.Stored(Bank) == Null
    ensures forall d :: d != c && d != Bank ==>
              EndOperations(StartOperations(s, socket, Some(c)).0, socket, Some(c)).0.locks.Stored(d) == s.locks.Stored(d)
  {
    var started := StartOperations(s, socket, Some(c)).0;
    assert started.locks.Stored(Bank) == User(ActorName(s, socket));
    assert GetLockedBy(started.locks, Some(c)) == User(ActorName(s, socket));
  }

  /** The counters an update may write. */
  function Touched(q: UpdateRequest): set<Counter> {
    match q.kind
    case Add | Subtract | SetTo => if q.counter.Some? then {q.counter.value} else {}
    case Transfer | Swap => {q.from, q.to}
    case Reset => {Bank, Gallo, Leon, Perro, Mano, Estrella}
    case Deposit | Other(_) => {}
  }

  /** The balance `if` chain. A missing `counter` writes the key
      `undefined`, which is none of the six; `deposit` has no branch. */
  function ApplyUpdate(b: Balances, q: UpdateRequest): (r: Balances)
    ensures SameOutside(r, b, Touched(q))
    ensures q.kind == Transfer || q.kind == Swap ==> r.Total() == b.Total()
    ensures q.kind == Subtract && q.counter.Some? ==> r.Get(q.counter.value) >= 0.0
    // add and set leave exactly the new value; subtract stops at zero
    ensures q.kind == Add && q.counter.Some? ==> r.Get(q.counter.value) == b.Get(q.counter.value) + q.amount
    ensures q.kind == SetTo && q.counter.Some? ==> r.Get(q.counter.value) == q.amount
    ensures q.kind == Subtract && q.counter.Some? && q.amount <= b.Get(q.counter.value) ==>
              r.Get(q.counter.value) == b.Get(q.counter.value) - q.amount
    ensures q.kind == Subtract && q.counter.Some? && q.amount > b.Get(q.counter.value) ==>
              r.Get(q.counter.value) == 0.0
    // with no counter the key written is `undefined`, none of the six
    ensures (q.kind == Add || q.kind == Subtract || q.kind == SetTo) && q.counter.None? ==> r == b
    ensures q.kind == Deposit || q.kind.Other? ==> r == b
  {
    match q.kind
    case Add => if q.counter.Some? then b.Shift(q.counter.value, q.amount) else b
    case Subtract => if q.counter.Some? then b.Put(q.counter.value, Max(0.0, b.Get(q.counter.value) - q.amount)) else b
    case SetTo => if q.counter.Some? then b.Put(q.counter.value, q.amount) else b
    case Transfer => Move(b, q.from, q.to, q.amount)
    case Swap => Exchange(b, q.from, q.to)
    case Reset => Initial()
    case Deposit => b
    case Other(_) => b
  }

  /** Between two distinct counters `transfer` moves exactly `amount` with
      no cap and `swap` exchanges; `reset` restores the starting balances. */
  lemma TransferAndSwapPairs(b: Balances, q: UpdateRequest)
    ensures q.kind == Transfer && q.from != q.to ==>
              ApplyUpdate(b, q).Get(q.from) == b.Get(q.from) - q.amount
              && ApplyUpdate(b, q).Get(q.to) == b.Get(q.to) + q.amount
    ensures q.kind == Swap && q.from != q.to ==>
              ApplyUpdate(b, q).Get(q.from) == b.Get(q.to) && ApplyUpdate(b, q).Get(q.to) == b.Get(q.from)
    ensures q.kind == Reset ==> ApplyUpdate(b, q) == Initial()
  {
  }

  /** The rejection a lock check gives, naming whoever `getLockedBy` names. */
  function Refuse(s: LockState, k: Key): Option<Reason> {
    Some(LockError(GetLockedBy(s, k)))
  }

  /** The authorisation ladder of `update_balance` as the server runs it:
      the lock table it leaves and the rejection, if any. In the second
      rung the destination is locked BEFORE the source is checked, so that
      lock survives a rejection. */
  function AuthorizeAsWritten(s: LockState, u: UserId, role: Role, q: UpdateRequest): (r: (LockState, Option<Reason>))
    ensures r.0.global == s.global
    // a deposit to the bank passes exactly when canUserTransferToBank does, and locks nothing
    ensures q.target == Some(Bank) && q.kind == Deposit ==> r.0 == s && (r.1.None? <==> CanUserTransferToBank(s, u, role))
    // a deposit to another counter locks it first and checks the source against the table so changed
    ensures q.kind == Deposit && q.target.Some? && q.target != Some(Bank) ==>
              r.0 == AutoLock(s, q.target.value, u) && (r.1.None? <==> CanUserOperate(r.0, q.counter, u, role))
    // a transfer checks its source first and locks the destination only when it passes
    ensures q.kind == Transfer ==>
              (r.1.None? <==> CanUserOperate(s, Some(q.from), u, role))
              && r.0 == (if r.1.None? then AutoLock(s, q.to, u) else s)
    // anything else, a deposit naming no target included, passes exactly when its counter may be operated
    ensures !(q.kind == Deposit && q.target.Some?) && q.kind != Transfer ==>
              r.0 == s && (r.1.None? <==> CanUserOperate(s, q.counter, u, role))
  {
    if q.target == Some(Bank) && q.kind == Deposit then
      if !CanUserTransferToBank(s, u, role) then
        (s, Some(LockError(if s.global.isLocked then HolderEntry(s.global.lockedBy) else User("Sistema"))))
      else (s, None)
    else if q.target.Some? && q.kind == Deposit then
      var l := AutoLock(s, q.target.value, u);
      if !CanUserOperate(l, q.counter, u, role) then (l, Refuse(l, q.counter)) else (l, None)
    else if q.kind == Transfer then
      if !CanUserOperate(s, Some(q.from), u, role) then (s, Refuse(s, Some(q.from)))
      else (AutoLock(s, q.to, u), None)
    else
      if !CanUserOperate(s, q.counter, u, role) then (s, Refuse(s, q.counter)) else (s, None)
  }

  /** The same ladder with the source checked before the destination is
      locked, so that every rejection leaves the lock table as it was. */
  function Authorize(s: LockState, u: UserId, role: Role, q: UpdateRequest): (r: (LockState, Option<Reason>))
    ensures r.1.Some? ==> r.0 == s
    ensures r.0.global == s.global
    // only a deposit or transfer destination can change hands, never away from another holder
    ensures forall d :: r.0.Stored(d) != s.Stored(d) ==>
              r.1.None? && r.0.Stored(d) == User(u) && !(s.Stored(d).Truthy() && s.Stored(d) != User(u))
              && ((q.kind == Deposit && q.target == Some(d)) || (q.kind == Transfer && q.to == d))
    // a deposit to the bank passes exactly when canUserTransferToBank does
    ensures q.target == Some(Bank) && q.kind == Deposit ==> (r.1.None? <==> CanUserTransferToBank(s, u, role))
    // every other request passes exactly when its source may be operated
    ensures q.kind == Transfer ==>
              (r.1.None? <==> CanUserOperate(s, Some(q.from), u, role))
    // anything else, a deposit naming no target included, passes exactly when its counter may be operated
    ensures !(q.kind == Deposit && q.target.Some?) && q.kind != Transfer ==>
              (r.1.None? <==> CanUserOperate(s, q.counter, u, role))
    // an accepted deposit to another counter or transfer locks its destination to the sender
    ensures q.kind == Deposit && q.target.Some? && q.target != Some(Bank) ==>
              r.0 == (if r.1.None? then AutoLock(s, q.target.value, u) else s)
    ensures q.kind == Transfer ==> r.0 == (if r.1.None? then AutoLock(s, q.to, u) else s)
    ensures q.kind == Deposit && q.target.Some? && q.target != Some(Bank) ==>
              (r.1.None? <==> CanUserOperate(s, q.counter, u, role))
  {
    if q.target == Some(Bank) && q.kind == Deposit then
      if !CanUserTransferToBank(s, u, role) then
        (s, Some(LockError(if s.global.isLocked then HolderEntry(s.global.lockedBy) else User("Sistema"))))
      else (s, None)
    else if q.target.Some? && q.kind == Deposit then
      if !CanUserOperate(s, q.counter, u, role) then (s, Refuse(s, q.counter))
      else (AutoLock(s, q.target.value, u), None)
    else if q.kind == Transfer then
      if !CanUserOperate(s, Some(q.from), u, role) then (s, Refuse(s, Some(q.from)))
      else (AutoLock(s, q.to, u), None)
    else
      if !CanUserOperate(s, q.counter, u, role) then (s, Refuse(s, q.counter)) else (s, None)
  }

  /** `update_balance` as the server runs it. */
  function UpdateBalanceAsWritten(s: State, socket: SocketId, q: UpdateRequest): (r: (State, Outcome))
    ensures r.0.users == s.users
    ensures var a := AuthorizeAsWritten(s.locks, ActorName(s, socket), ActorRole(s, socket), q);
            (r.1 == Ok <==> a.1.None?) && (r.1 != Ok ==> r.1 == Rejected(a.1.value))
            // the table the ladder leaves is kept, on a rejection too
            && r.0.locks == a.0
    ensures r.1 == Ok ==> r.0.balances == ApplyUpdate(s.balances, q)
    ensures r.1 != Ok ==> r.0.balances == s.balances
  {
    var auth := AuthorizeAsWritten(s.locks, ActorName(s, socket), ActorRole(s, socket), q);
    if auth.1.Some? then (s.(locks := auth.0), Rejected(auth.1.value))
    else (s.(locks := auth.0, balances := ApplyUpdate(s.balances, q)), Ok)
  }

  /** A deposit to another counter that fails its source check still
      leaves the destination locked to the sender. */
  lemma DepositRejectionLeavesLock()
    ensures var s := State(map["s1" := Session("contador_gallo", Operator, "Contador Gallo", Some(Gallo))],
                           InitialLocks().Assign(Leon, User("contador_leon")), Initial());
            var q := UpdateRequest(Deposit, Some(Leon), 100.0, Some(Perro), Leon, Perro);
            UpdateBalanceAsWritten(s, "s1", q).1.Rejected?
            && s.locks.Stored(Perro) == Null
            && UpdateBalanceAsWritten(s, "s1", q).0.locks.Stored(Perro) == User("contador_gallo")
  {
    var s := State(map["s1" := Session("contador_gallo", Operator, "Contador Gallo", Some(Gallo))],
                   InitialLocks().Assign(Leon, User("contador_leon")), Initial());
    assert ActorName(s, "s1") == "contador_gallo";
    assert s.locks.Stored(Leon) == User("contador_leon");
  }

  /** For every state: a deposit to another counter that the source check
      refuses still leaves that counter locked to the sender whenever it
      was free or already theirs, while the corrected handler leaves every
      lock as it was. */
  lemma RejectedDepositKeepsAutoLock(s: State, socket: SocketId, q: UpdateRequest)
    requires q.kind == Deposit && q.target.Some? && q.target != Some(Bank)
    requires !s.locks.Stored(q.target.value).Truthy() || s.locks.Stored(q.target.value) == User(ActorName(s, socket))
    ensures UpdateBalanceAsWritten(s, socket, q).1.Rejected? ==>
              UpdateBalanceAsWritten(s, socket, q).0.locks.Stored(q.target.value) == User(ActorName(s, socket))
    ensures UpdateBalance(s, socket, q).1.Rejected? ==> UpdateBalance(s, socket, q).0.locks == s.locks
  {
  }

  /** `update_balance` with the source checked first: a rejection changes
      nothing at all, and an accepted request runs the balance chain. */
  function UpdateBalance(s: State, socket: SocketId, q: UpdateRequest): (r: (State, Outcome))
    ensures r.0.users == s.users
    ensures var a := Authorize(s.locks, ActorName(s, socket), ActorRole(s, socket), q);
            (r.1 == Ok <==> a.1.None?) && (r.1 != Ok ==> r.1 == Rejected(a.1.value))
            && (r.1 == Ok ==> r.0.locks == a.0)
    ensures r.1 != Ok ==> r.1.Rejected? && r.0 == s
    ensures r.1 == Ok ==> r.0.balances == ApplyUpdate(s.balances, q)
    ensures forall d :: s.locks.Stored(d).Truthy() && s.locks.Stored(d) != User(ActorName(s, socket))
              ==> r.0.locks.Stored(d) == s.locks.Stored(d)
  {
    var auth := Authorize(s.locks, ActorName(s, socket), ActorRole(s, socket), q);
    if auth.1.Some? then (s, Rejected(auth.1.value))
    else (s.(locks := auth.0, balances := ApplyUpdate(s.balances, q)), Ok)
  }

  /** Where the two ladders agree: every request but a deposit to another
      counter is handled identically. */
  lemma AsWrittenAgreesOffDeposit(s: State, socket: SocketId, q: UpdateRequest)
    requires !(q.kind == Deposit && q.target.Some? && q.target != Some(Bank))
    ensures UpdateBalanceAsWritten(s, socket, q) == UpdateBalance(s, socket, q)
  {
  }

  /** `swap` and `reset` are authorised on the `counter` field, not on
      the swapped counters: whoever may operate `counter` swaps any pair. */
  lemma SwapAuthorisesCounterField(s: State, socket: SocketId, q: UpdateRequest)
    requires q.kind == Swap || q.kind == Reset
    ensures UpdateBalance(s, socket, q).1 == Ok
            <==> CanUserOperate(s.locks, q.counter, ActorName(s, socket), ActorRole(s, socket))
    ensures q.counter.None? && ActorRole(s, socket) != Admin ==> UpdateBalance(s, socket, q).1.Rejected?
  {
  }

  /** `disconnect`: a global lock the user holds is lifted first; then
      every counter `getLockedBy` attributes to the user is released. While
      someone else's global lock is up, `getLockedBy` names that holder, so
      the user's own counter locks stay. */
  function Disconnect(s: State, socket: SocketId): (r: State)
    ensures r.users == Forget(s.users, socket) && r.balances == s.balances
    ensures socket !in s.users ==> r == s
    ensures socket in s.users && s.locks.global.lockedBy == Some(s.users[socket].username) ==>
              !r.locks.global.isLocked
    // a global lock the leaver holds is reset to no holder; any other is kept as it was
    ensures socket in s.users && s.locks.global.isLocked && s.locks.global.lockedBy == Some(s.users[socket].username) ==>
              r.locks.global == Unlocked
    ensures socket in s.users && !(s.locks.global.isLocked && s.locks.global.lockedBy == Some(s.users[socket].username)) ==>
              r.locks.global == s.locks.global
    ensures socket in s.users && !r.locks.global.isLocked ==>
              forall c :: r.locks.Stored(c) == (if s.locks.Stored(c) == User(s.users[socket].username) then Null
                                               else s.locks.Stored(c))
    ensures socket in s.users && r.locks.global.isLocked ==> r.locks == s.locks
  {
    if socket !in s.users then s
    else
      var u := s.users[socket].username;
      var g := if s.locks.global.isLocked && s.locks.global.lockedBy == Some(u) then EndGlobalLock(s.locks, u) else s.locks;
      var slots := map c | c in g.slots :: if GetLockedBy(g, Some(c)) == User(u) then Null else g.slots[c];
      assert g.global.isLocked ==> slots == g.slots by {
        if g.global.isLocked {
          forall c | c in g.slots ensures slots[c] == g.slots[c] {
            assert GetLockedBy(g, Some(c)) == HolderEntry(g.global.lockedBy);
          }
        }
      }
      State(Forget(s.users, socket), g.(slots := slots), s.balances)
  }

  lemma DisconnectIdempotent(s: State, socket: SocketId)
    ensures Disconnect(Disconnect(s, socket), socket) == Disconnect(s, socket)
  {
  }
}
